=== FILE: README.md ===
# cline-tools rule blocks, modelled in Dafny

cline-tools keeps a project's Cline rules in sync with an external rules
collection. A rules file is made of blocks, each opened by a marker line:
`### BEGIN GENERAL RULES`, `### BEGIN SYSTEM`, `### BEGIN PROJECT` or
`### BEGIN LANGUAGE <TAG>`. A block runs from its marker to the next
`### BEGIN` or to the end of the text. The tool does four things:

- It finds, extracts, replaces and compares blocks (`BlockExtractor`).
- It compares the block of a local rules file with the same block of an
  external file (`BlockComparer`).
- It copies a block in either direction between the two files
  (`BlockUpdater`).
- It lets the user pick rules files interactively and merges them into one
  output file (`FileSelector`, `InputHandler`, `OutputHandler`,
  `FileManager`).

The model follows those classes, one module per source file:

- `Text` holds the Python string operations the code relies on: `strip`,
  `find`, `split`, `lower`, `upper` and `join`.
- `BlockExtractor` is pure. Every operation is a function, and lemmas relate
  them:
  - the block span and its uniqueness;
  - extraction as the stripped span;
  - idempotent extraction;
  - replace-then-extract and the extract/replace round trip;
  - compare after replace.
- `FileManager` holds the sorted listing of glob matches, the merge, and
  class `FileSystem`. The class's `files` (path to text), `dirs` and
  `readOnly` fields are changed by `WriteFile` and `EnsureDirectory`.
- `BlockComparer`'s extraction and `BlockUpdater`'s updates are functions of
  the file contents (a map from path to text); its `validate_files` asks a
  `FileSystem` whether the paths exist. `BlockUpdater` and `OutputHandler`
  also have methods that change a `FileSystem`, and each of them states its
  entire new state.
- `InputHandler` reads standard input through class `Console`. Its `input`
  field is the sequence of lines not read yet. Each prompt loop is a method
  proved equal to a function that maps the input lines to the answer and to
  the lines left unread. The end of input, where Python raises EOFError, is
  the answer `EndOfInput`.
- `FileSelector` builds the selection of files on the same scheme.

Writing a local block back into the external file replaces everything from
the block's marker up to the next `### BEGIN`, including the newline before
that marker, and inserts the local text verbatim. So in
`### BEGIN SYSTEM\nfoo\n### BEGIN PROJECT\nbar`, replacing the SYSTEM block
by `### BEGIN SYSTEM\nfoo2` gives
`### BEGIN SYSTEM\nfoo2### BEGIN PROJECT\nbar`: a local text without a
trailing newline ends up joined to the next marker. Only a local text that
ends in a newline keeps the PROJECT marker on its own line
(`BlockExtractor.SystemReplaceExample` proves both cases).

## Model

| member | source | states |
|---|---|---|
| Text.IsSpaceCodePoints | src/core/compare/block_comparer.py:77 | The characters `str.strip()` removes are exactly Python's whitespace code points, listed outright. |
| Text.Strip | src/core/compare/block_comparer.py:77 | `strip()` only removes characters, so its result is never longer than its input. |
| Text.StripIsStripped | src/core/block_extractor.py:108 | The result of `strip()` neither begins nor ends with whitespace. |
| Text.StripPadded | src/core/block_extractor.py:108 | `strip()` removes only whitespace: its result sits in the input after the leading whitespace, with only whitespace on either side. |
| Text.StripUnique | src/core/compare/block_comparer.py:77 | Any unpadded string that sits in `s` with only whitespace around it is `strip(s)`, so strip is pinned down by the two properties above. |
| Text.StripSameIffPadded | src/core/compare/block_comparer.py:77 | Two texts strip to the same string exactly when the first is the second's stripped text with only whitespace around it. |
| Text.StripIdempotent | src/core/compare/block_comparer.py:77 | Stripping twice is stripping once. |
| Text.StripOfStripped | src/core/block_extractor.py:108 | A string without surrounding whitespace is left unchanged by `strip()`. |
| Text.StripKeepsHead | src/core/block_extractor.py:104-108 | Stripping a text that begins with a marker keeps the marker: the result is a prefix of the text at least as long as the marker. |
| Text.FindFrom | src/core/block_extractor.py:101 | The search from position `k` returns the first occurrence at or after `k`, or None when there is none. |
| Text.Find | src/core/block_extractor.py:90 | `str.find` returns the first occurrence of the pattern, or None (Python's -1) when it occurs nowhere. |
| Text.FindIsFirst | src/core/block_extractor.py:130 | An occurrence with no occurrence before it is the one `find` returns. |
| Text.Lower | src/core/block_extractor.py:30 | `lower()` keeps the length and lower-cases each character in place. |
| Text.Upper | src/core/block_extractor.py:60 | `upper()` keeps the length and upper-cases each character in place. |
| Text.Split | src/core/block_extractor.py:30 | `split(sep)` gives at least one part; no part contains the separator; joining the parts with it gives the text back. |
| Text.SplitConcat | src/core/block_extractor.py:30 | Splitting `a + sep + b` is splitting `a` followed by splitting `b`. |
| Text.JoinWith | src/core/file_manager.py:104 | Joining no parts gives the empty string, one part gives that part, and more parts give a text that begins with the first part. |
| Text.JoinWithAppend | src/core/file_manager.py:104 | Joining one more part appends the separator and that part. |
| BlockExtractor.DirectoryType | src/core/block_extractor.py:34-43 | Exactly `general`, `languages`, `system` and `project` have a block type, always one of the four known types and never `Unknown`; `languages` gives LANGUAGE and the others the type of their own name; any other directory gives None. |
| BlockExtractor.FirstIndex | src/core/block_extractor.py:32 | `list.index`: the first position holding the element. |
| BlockExtractor.DetermineBlockType | src/core/block_extractor.py:30-31 | A path with no `clinerules` segment has no block type. |
| BlockExtractor.BlockTypeOfRulesPath | src/core/block_extractor.py:30-43 | For `<root>/clinerules/<dir>/<name>` with no `clinerules` segment in the root, the block type is that of the lower-cased directory, whatever the case of its letters. |
| BlockExtractor.WordRun | src/core/block_extractor.py:13 | The greedy `\w+` takes the longest run of word characters at its position. |
| BlockExtractor.LanguageMatchFrom | src/core/block_extractor.py:58 | `re.search` finds the leftmost match at or after the position, or none at all. |
| BlockExtractor.LanguageTag | src/core/block_extractor.py:58-60 | A language tag is a non-empty word. |
| BlockExtractor.LanguageTagSpec | src/core/block_extractor.py:13-62 | There is no tag exactly when the file name contains no `clinerules_language_<word>.md`; otherwise the tag is the word of the leftmost such occurrence. |
| BlockExtractor.StartPattern | src/core/block_extractor.py:57-67 | There is no marker exactly for an unknown type, or for LANGUAGE when the file name has no tag; every marker starts with `### BEGIN`, has more after it and does not end in whitespace. For LANGUAGE and any path with a tag, the marker is `### BEGIN LANGUAGE ` followed by that tag upper-cased. |
| BlockExtractor.FixedMarkers | src/core/block_extractor.py:63-66 | GENERAL's marker is `### BEGIN GENERAL RULES`; SYSTEM and PROJECT carry their own name. |
| BlockExtractor.LanguageMarker | src/core/block_extractor.py:57-61 | The LANGUAGE marker of `clinerules_language_<tag>.md` is `### BEGIN LANGUAGE ` followed by the upper-cased tag. |
| BlockExtractor.MarkerBounds | src/core/block_extractor.py:130-144 | The end offset is at least the start plus the marker length and at most the text length. |
| BlockExtractor.MarkerExtract | src/core/block_extractor.py:90-108 | An extracted block has no surrounding whitespace. |
| BlockExtractor.MarkerBoundsSpec | src/core/block_extractor.py:130-144 | The bounds fail exactly when the marker does not occur; otherwise they are the block span. The span starts at the first occurrence of the marker and holds no `### BEGIN` after the marker. It ends at the next `### BEGIN` or at the end of the text. |
| BlockExtractor.BoundsCutAtNextMarker | src/core/block_extractor.py:138-140 | When another `### BEGIN` follows the marker, the block ends where it starts. |
| BlockExtractor.BoundsRunToEnd | src/core/block_extractor.py:141-142 | When no `### BEGIN` follows the marker, the block runs to the end of the text. |
| BlockExtractor.SpanDeterminesBounds | src/core/block_extractor.py:125-144 | Conversely, any block span is what the bounds return, so the span is unique. |
| BlockExtractor.MarkerExtractIsStrippedSpan | src/core/block_extractor.py:90-108 | Extraction fails exactly when the bounds do; otherwise it is the text between the bounds, stripped. |
| BlockExtractor.ExtractCutAtNextMarker | src/core/block_extractor.py:100-106 | With a later `### BEGIN`, the block extracted is the stripped text from the marker up to it. |
| BlockExtractor.ExtractRunsToEnd | src/core/block_extractor.py:97-108 | Without a later `### BEGIN`, the block extracted is the stripped rest of the text. |
| BlockExtractor.ExtractedIsSingleBlock | src/core/block_extractor.py:98-108 | An extracted block starts with its marker, so it is never empty. It has no surrounding whitespace and holds no other `### BEGIN`. |
| BlockExtractor.ExtractOfSingleBlock | src/core/block_extractor.py:84-108 | Extracting from a text that is one block gives that text, stripped. |
| BlockExtractor.SpliceIsBlockSpan | src/core/block_extractor.py:166-167 | Splicing a single block of the same marker in place of the block span makes the spliced text the new block span. |
| BlockExtractor.SpliceThenExtract | src/core/block_extractor.py:166-167 | After such a splice, the block extracted is the spliced block, stripped. |
| BlockExtractor.FindBlockBounds | src/core/block_extractor.py:125-144 | Bounds exist only for a type with a marker, and lie within the text past the marker. |
| BlockExtractor.ExtractBlock | src/core/block_extractor.py:84-108 | A block found has no surrounding whitespace. |
| BlockExtractor.ReplaceBlock | src/core/block_extractor.py:162-167 | Replacement succeeds exactly when the bounds are found. The result is the text before the block, the new block verbatim and the text after the block, and its length is accordingly. |
| BlockExtractor.CompareBlocks | src/core/block_extractor.py:185-192 | True exactly when both blocks are found and are equal; a missing block on either side gives False. |
| BlockExtractor.FindBlockBoundsSpec | src/core/block_extractor.py:125-144 | The bounds fail exactly when the type has no marker or the marker does not occur; otherwise they form the block span. |
| BlockExtractor.ExtractBlockIsStrippedSpan | src/core/block_extractor.py:84-108 | extract_block fails exactly when find_block_bounds does; otherwise it is the stripped text between the bounds. |
| BlockExtractor.ExtractIdempotent | src/core/block_extractor.py:84-108 | An extracted block is a non-empty single block of its marker, and extracting from it again gives it back. |
| BlockExtractor.ReplaceWithOwnSpan | src/core/block_extractor.py:162-167 | Putting back the text that was between the bounds restores the original text. |
| BlockExtractor.ReplaceThenExtract | src/core/block_extractor.py:162-167 | After replacing the block by a single block of the same marker, the block extracted is that block, stripped. |
| BlockExtractor.ExtractReplaceRoundTrip | src/core/block_extractor.py:162-167 | Replacing the block by the block extracted from the same text leaves the extracted block unchanged. |
| BlockExtractor.CompareAfterReplace | src/core/block_extractor.py:185-192 | After a single block is written over the block of a text, compare_blocks finds the result and that block identical. |
| BlockExtractor.SystemMarkerMatchesLongerName | src/core/block_extractor.py:90 | The search is for a substring, not a line: `### BEGIN SYSTEM` is found inside `### BEGIN SYSTEMX`. |
| BlockExtractor.SystemBoundsExample | src/core/block_extractor.py:130-144 | In a SYSTEM block followed by a PROJECT block, the SYSTEM block's bounds end at the PROJECT marker, newline before it included. |
| BlockExtractor.SystemReplaceExample | src/core/block_extractor.py:162-167 | Replacing that SYSTEM block by a text without a trailing newline joins it to the PROJECT marker; with a trailing newline the PROJECT block stays on its own line. |
| FileManager.StrLeTotal | src/core/file_manager.py:23 | Python's string order is total. |
| FileManager.StrLeTransitive | src/core/file_manager.py:23 | Python's string order is transitive. |
| FileManager.StrLeAntisymmetric | src/core/file_manager.py:23 | Python's string order is antisymmetric. |
| FileManager.SortedPairwise | src/core/file_manager.py:23 | In a sorted list every path is at most every later one. |
| FileManager.SortedUnique | src/core/file_manager.py:23 | Two sorted permutations of each other are equal, so a list has only one sorted arrangement. |
| FileManager.Insert | src/core/file_manager.py:23 | Inserting into a sorted list gives a sorted list one longer. |
| FileManager.InsertPermutes | src/core/file_manager.py:23 | Insertion adds the path and keeps every other one. |
| FileManager.Sort | src/core/file_manager.py:23 | `sorted` gives a sorted list of the same length. |
| FileManager.SortPermutes | src/core/file_manager.py:23 | `sorted` keeps every path as many times as it occurs. |
| FileManager.ListFiles | src/core/file_manager.py:23-24 | list_files gives a sorted list, as long as the list of matches. |
| FileManager.ListFilesSpec | src/core/file_manager.py:23-24 | list_files is a permutation of the matches, and it is the only sorted one. |
| FileManager.ReadAll | src/core/file_manager.py:96-103 | All files read exactly when every path is a file; then each entry is that file's text, stripped, in order. |
| FileManager.Merged | src/core/file_manager.py:96-107 | The merge fails exactly when some path is not a readable file. |
| FileManager.MergedShort | src/core/file_manager.py:96-104 | Merging no files gives the empty text; merging one file gives its stripped text. |
| FileManager.MergedAppend | src/core/file_manager.py:98-104 | Merging one more file appends a blank line and its stripped text. |
| FileManager.MergedExample | src/core/file_manager.py:98-104 | Any two distinct paths holding ` a ` and `b` followed by a newline merge into `a`, a blank line and `b`. |
| FileManager.FileSystem.ReadFile | src/core/file_manager.py:37-45 | read_file returns the file's text, or None when there is no file at the path; nothing changes. |
| FileManager.FileSystem.WriteFile | src/core/file_manager.py:59-65 | write_file succeeds exactly when the path can be written. On success the path reads as the new text and every other path reads as before; on failure nothing changes. |
| FileManager.FileSystem.EnsureDirectory | src/core/file_manager.py:78-83 | The call succeeds unless a file is at the path. The directory is then present, and calling again changes nothing. |
| FileManager.FileSystem.MergeFiles | src/core/file_manager.py:96-107 | merge_files returns the merge of the current files. |
| BlockComparer.ExtractBlocks | src/core/compare/block_comparer.py:33-64 | Blocks are extracted exactly when both files read, the local path has a block type and the extractor finds that block in both texts. The result is then the external block, the local block and that type, and both blocks are stripped. |
| BlockComparer.ExtractBlocksOf | src/core/compare/block_comparer.py:43-60 | When both files read and the extractor finds both blocks, extract_blocks returns those blocks and the local path's type. |
| BlockComparer.AreBlocksIdentical | src/core/compare/block_comparer.py:77 | Two blocks are identical exactly when the external block is the local block's stripped text with only whitespace around it. |
| BlockComparer.MissingFile | src/core/compare/block_comparer.py:90-96 | No path is reported exactly when both exist. A reported path is one of the two and does not exist; a missing external path is the one reported, even when the local path is also missing. |
| BlockComparer.ValidateFiles | src/core/compare/block_comparer.py:90-98 | validate_files holds exactly when both paths exist. |
| BlockComparer.IdenticalIffSamePaddedText | src/core/compare/block_comparer.py:77 | Two blocks are identical exactly when they are the same text padded with whitespace; only outer whitespace is ignored. |
| BlockComparer.IdenticalIsEquivalence | src/core/compare/block_comparer.py:77 | Being identical is reflexive, symmetric and transitive. |
| BlockComparer.IdenticalExamples | src/core/compare/block_comparer.py:77 | ` x` followed by a newline is identical to `x`; `x`, two newlines, `y` is not identical to `xy`. |
| BlockComparer.ExtractBlocksThenCompare | src/core/compare/block_comparer.py:43-60 | Extracting both blocks and finding them identical is the same as compare_blocks on the two texts under the local path's type. |
| BlockComparer.ExtractedFilesAreValid | src/core/compare/block_comparer.py:90-98 | Blocks can be extracted only from files that pass validate_files. |
| BlockUpdater.LocalUpdate | src/core/update/block_updater.py:35-51 | The local text is computed exactly when the external file reads, the local path has a block type and the external text has that block. It is then that block, which has no surrounding whitespace. |
| BlockUpdater.ExternalUpdate | src/core/update/block_updater.py:78-95 | The new external text is computed exactly when both files read, the local path has a block type and the external text has that block. It is then the external text with its block replaced by the entire local text. |
| BlockUpdater.UpdateLocalWithExternal | src/core/update/block_updater.py:33-63 | Succeeds exactly when the external file reads, the local path has a type, the external file has that block and the local file can be written. Then the local file holds that block and nothing else changes. On failure nothing changes. |
| BlockUpdater.UpdateExternalWithLocal | src/core/update/block_updater.py:76-108 | Succeeds exactly when both files read, the local path has a type, the external file has that block and can be written. Only the external file is then written; on failure nothing changes. |
| BlockUpdater.ExternalUpdateSplices | src/core/update/block_updater.py:78-98 | The external file is rewritten as its text before the block, the entire local text verbatim, and its text after the block. |
| BlockUpdater.UpdateLocalThenIdentical | src/core/update/block_updater.py:47-56 | After update_local_with_external, the comparer extracts the same block from both files and finds them identical. |
| BlockUpdater.UpdateExternalThenIdentical | src/core/update/block_updater.py:85-100 | When the local file is a single block of its type, after update_external_with_local the comparer extracts the stripped local text from both files. |
| BlockUpdater.LocalThenExternalKeepsBlock | src/core/update/block_updater.py:47-98 | Updating the local file from the external one and then writing it back leaves the external block as it was. |
| OutputHandler.EnsureOutputDirectory | src/core/rules/output_handler.py:26-32 | Always succeeds. The directory is created only when nothing exists at its path; afterwards the path exists, and no file changes. |
| OutputHandler.MergeFiles | src/core/rules/output_handler.py:44-59 | An empty selection gives None; otherwise the result is the stripped texts joined with blank lines, or None when a file cannot be read. |
| OutputHandler.CreateOutputFile | src/core/rules/output_handler.py:71-74 | The output directory is ensured, then the output file is written. Success exactly when that file can be written, and no other file changes. |
| OutputHandler.ProcessFiles | src/core/rules/output_handler.py:86-102 | Succeeds exactly when the selection is non-empty, every selected file reads and the output file can be written. Then the output file holds the merge; no other file ever changes. Once the merge succeeds, the output directory is present: it is added when nothing was at its path, and no other directory changes. |
| InputHandler.Console.ReadLine | src/utils/input_handler.py:31 | `input()` consumes the first unread line, or reports the end of input when none is left. |
| InputHandler.ParseInt | src/utils/input_handler.py:35 | `int()` accepts exactly a non-empty run of digits, optionally preceded by `+` or `-`. The value is the digits' decimal value, negated after a `-`, so it is non-negative unless the text starts with a minus sign. |
| InputHandler.ParseDecimal | src/utils/input_handler.py:35 | `int()` of a number's decimal digits, with an optional sign, gives that number back. |
| InputHandler.Decide | src/utils/input_handler.py:31-42 | A blank line skips exactly when skipping is allowed. A number from 1 to the count picks that entry; anything else asks again. |
| InputHandler.DecideNumber | src/utils/input_handler.py:35-39 | Typing an entry's number picks that entry, whether or not skipping is allowed. |
| InputHandler.Selection | src/utils/input_handler.py:29-42 | The prompt reads at least one line unless the input is exhausted, and None is returned only when skipping is allowed. |
| InputHandler.SelectionUnread | src/utils/input_handler.py:29-31 | The lines left unread are exactly those after the lines read. |
| InputHandler.SelectionRejects | src/utils/input_handler.py:40-42 | Every line read before the deciding one was rejected. |
| InputHandler.SelectionDecides | src/utils/input_handler.py:32-39 | The last line read decides: a blank line gives None, a number `n` gives the `n`-th file. |
| InputHandler.GetValidSelection | src/utils/input_handler.py:29-42 | The answer and the input left are those of Selection on the input before the call. |
| InputHandler.DiffToolChoice | src/utils/input_handler.py:56-62 | The prompt reads at least one line unless the input is exhausted. |
| InputHandler.DiffToolChoiceSpec | src/utils/input_handler.py:56-62 | The first line that strips to `1` or `2` decides (True for git diff, False for VS Code). Every earlier line is rejected, and later lines are left unread. |
| InputHandler.GetDiffToolChoice | src/utils/input_handler.py:56-62 | The answer and the input left are those of DiffToolChoice on the input before the call. |
| InputHandler.DisplayFilesWithNumbers | src/utils/input_handler.py:79-84 | The files are numbered consecutively from the start number, in order. The next free number is returned, which is the start number itself when there are no files. |
| InputHandler.DisplaySelectedFiles | src/utils/input_handler.py:95-104 | The selected files are listed unnumbered, then the remaining files numbered from 1. |
| InputHandler.NumberShownSelects | src/utils/input_handler.py:35-39 | Typing the number shown beside a file in a listing numbered from 1 selects that file on the first line. |
| FileSelector.GetFilesByCategory | src/core/rules/file_selector.py:34-39 | Five sorted listings, each a permutation of its pattern's matches, in the order general, system, project, language, cline. |
| FileSelector.DisplayFilesByCategory | src/core/rules/file_selector.py:58-78 | Files are listed in the order cline, general, system, project, language, numbered consecutively from 1 across categories. |
| FileSelector.SingleSelection | src/core/rules/file_selector.py:87-96 | With no matching file the answer is None and no input is read. |
| FileSelector.SelectFile | src/core/rules/file_selector.py:87-96 | The cline, general, system and project selects (lines 87-96, 105-114, 123-132 and 173-182). Each answers as get_valid_selection over its sorted listing, skipping allowed, and does nothing when the listing is empty. |
| FileSelector.Remaining | src/core/rules/file_selector.py:148 | The remaining files are never more than the listed files. |
| FileSelector.RemainingMembers | src/core/rules/file_selector.py:148 | A file remains exactly when it is listed and not selected yet. |
| FileSelector.RemainingShrinks | src/core/rules/file_selector.py:148-161 | Selecting a file that still remained leaves fewer files remaining. |
| FileSelector.SelectionOutcome | src/core/rules/file_selector.py:153-160 | A pick is one of the listed files, and a skip ends on a blank line, the last line read. |
| FileSelector.SingleSelectionChosen | src/core/rules/file_selector.py:87-96 | A single-file select answers with one of its listed files, or None. |
| FileSelector.SelectRemaining | src/core/rules/file_selector.py:148-161 | Adding a file that still remained keeps the selection free of duplicates and within the listing. |
| FileSelector.LanguageSelection | src/core/rules/file_selector.py:141-164 | The language loop never reads more lines than it is given. |
| FileSelector.LanguageSelectionExtends | src/core/rules/file_selector.py:146-164 | Whatever the lines, the loop only appends to the selection it starts from. |
| FileSelector.LanguageSelectionAppendsChoice | src/core/rules/file_selector.py:148-161 | When the prompt over the remaining files picks `f`, the loop continues from the selection with `f` appended, and the answer holds `f` right after the earlier selection: files come in the order chosen, not in listing order. |
| FileSelector.LanguageSelectionSpec | src/core/rules/file_selector.py:146-164 | The selection only grows at its end (each choice appends the file chosen, by LanguageSelectionAppendsChoice). It never holds a file twice and holds only listed files, so no more of them than are listed. |
| FileSelector.LanguageSelectionUnread | src/core/rules/file_selector.py:147-163 | The lines left unread are exactly those after the lines read. |
| FileSelector.LanguageSelectionStops | src/core/rules/file_selector.py:147-160 | The loop stops only when every file is selected or on a blank line, the last line read. |
| FileSelector.SelectLanguageFiles | src/core/rules/file_selector.py:141-164 | The answer and the input left are those of LanguageSelection on the sorted language files from an empty selection. |
| FileSelector.LanguageSelectionEndOfInput | src/core/rules/file_selector.py:147-163 | The language loop ends at the end of input only once every line has been read. |
| FileSelector.Kept | src/core/rules/file_selector.py:201-208 | Python's truth test on a chosen path: None and the empty path contribute nothing, any other path contributes itself alone. |
| FileSelector.AllSelection | src/core/rules/file_selector.py:191-211 | select_all_files never reads more lines than it is given, and it ends at the end of input only once every line has been read. |
| FileSelector.AllSelectionOrder | src/core/rules/file_selector.py:191-211 | The result is the cline, general, system and project choices that were made, in that order and each from its own listing. Distinct language files follow. |
| FileSelector.CollectSelected | src/core/rules/file_selector.py:191-209 | The collected list is the kept cline, general, system and project choices, in that order, followed by the language files. |
| FileSelector.SelectAllFiles | src/core/rules/file_selector.py:191-211 | The answer and the input left are those of AllSelection: the five selects in order, each on the lines the previous ones left. |

## Left out

- Globbing, `os.path.normpath` and `os.path.basename` are not modelled. What each glob pattern matched is a parameter (`Matches`), paths are kept as matched, and listings carry full paths.
- Printing and logging are not modelled. The display methods return the numbers and files they would show, not the text printed.
- The path separator is fixed to `/` (`os.sep` on POSIX).
- `\w`, `lower()` and `upper()` are modelled on ASCII only; other characters count as non-word and keep their case.
- InputHandler.ParseInt accepts only an optional sign followed by ASCII digits. Python's `int()` also accepts underscores between digits and non-ASCII digits; these are modelled as rejected.
- Text.IsSpace lists the whitespace code points of Python's `str.strip()` explicitly; Unicode tables are not modelled.
- FileManager.FileSystem.ReadFile fails only when there is no file at the path (absent, or a directory). Permission and decoding errors are not modelled.
- FileManager.FileSystem.WriteFile fails only for a directory or a path in `readOnly`. A missing parent directory is not modelled, nor is a file standing where a parent directory should be (there `ensure_output_directory` succeeds and the write then fails).
- FileManager.FileSystem.EnsureDirectory adds only the directory itself, not its missing parents, and fails only when a file is at the path.
- The broad `except Exception` handlers in the comparer, the updater and the merges are not modelled. Every modelled operation is total, so none of them can be reached.
- The end of standard input, where `input()` raises EOFError and nothing catches it, is the answer `EndOfInput`; it propagates to every caller.
- The update handler's `extract_block` and `replace_block` only pass through to the block extractor, so the updater calls the extractor directly. The rest of the update handler, the diff handler and diff formatter (external processes), the rules validator and the command-line entry points are not part of this model.
- The configured paths (`OUTPUT_DIR`, `OUTPUT_FILE`, the glob patterns) are parameters.
- `get_start_pattern` with a type name other than the four known ones is modelled as `Unknown(name)`, for a `name` satisfying `BlockExtractor.IsUnknownName`. The datatype does not enforce that, and `determine_block_type` never produces such a name.
- File texts are held as Python's text-mode `open()` returns them: decoded as UTF-8, with `\r\n` already translated to `\n`. Byte-level encodings and newline translation are not modelled.
- BlockExtractor.DetermineBlockType states only the path without a `clinerules` segment in its own contract. The paths that have one are covered by BlockExtractor.BlockTypeOfRulesPath, for the layout `<root>/clinerules/<dir>/<name>`.

=== FILE: block_comparer.dfy ===
/**
 * Comparing the block of a local rules file with the same block in an
 * external rules file (class BlockComparer). The block type always comes
 * from the local file's path, and the local path is also the file name the
 * LANGUAGE tag is read from, for both files.
 */
module BlockComparer {
  import opened Options
  import opened Text
  import opened BlockExtractor
  import opened FileManager

  /** `extract_blocks`: the external block, the local block and the block
      type; None when a file cannot be read, the local path has no block
      type, or either block is missing. */
  function ExtractBlocks(files: map<string, string>, externalFile: string, localFile: string)
    : (r: Option<(string, string, BlockType)>)
    ensures r.Some? ==> externalFile in files && localFile in files
    ensures r.Some? ==> Some(r.value.2) == DetermineBlockType(localFile)
    ensures r.Some? <==>
      && externalFile in files && localFile in files
      && DetermineBlockType(localFile).Some?
      && ExtractBlock(files[externalFile], DetermineBlockType(localFile).value, localFile).Some?
      && ExtractBlock(files[localFile], DetermineBlockType(localFile).value, localFile).Some?
    ensures r.Some? ==>
      r.value == (ExtractBlock(files[externalFile], r.value.2, localFile).value,
                  ExtractBlock(files[localFile], r.value.2, localFile).value,
                  r.value.2)
    ensures r.Some? ==> IsStripped(r.value.0) && IsStripped(r.value.1)
  {
    var externalContent := Read(files, externalFile);
    var localContent := Read(files, localFile);
    if externalContent.None? || localContent.None? then None
    else
      match DetermineBlockType(localFile)
      case None => None
      case Some(blockType) =>
        var externalBlock := ExtractBlock(externalContent.value, blockType, localFile);
        var localBlock := ExtractBlock(localContent.value, blockType, localFile);
        if externalBlock.None? || localBlock.None? then None
        else Some((externalBlock.value, localBlock.value, blockType))
  }

  /** extract_blocks succeeds with the two blocks the extractor finds. */
  lemma ExtractBlocksOf(files: map<string, string>, externalFile: string, localFile: string,
                        blockType: BlockType, externalBlock: string, localBlock: string)
    requires externalFile in files && localFile in files
    requires DetermineBlockType(localFile) == Some(blockType)
    requires ExtractBlock(files[externalFile], blockType, localFile) == Some(externalBlock)
    requires ExtractBlock(files[localFile], blockType, localFile) == Some(localBlock)
    ensures ExtractBlocks(files, externalFile, localFile) == Some((externalBlock, localBlock, blockType))
  {
  }

  /** `are_blocks_identical`: equal once surrounding whitespace is removed. */
  predicate AreBlocksIdentical(externalBlock: string, localBlock: string)
    ensures AreBlocksIdentical(externalBlock, localBlock) <==>
      Padded(externalBlock, Strip(localBlock), LeadingSpace(externalBlock))
  {
    StripSameIffPadded(externalBlock, localBlock);
    Strip(externalBlock) == Strip(localBlock)
  }

  /** The path validate_files reports as missing: the external path is
      checked first, so it is the one reported when both are missing. */
  function MissingFile(fs: FileSystem, externalFile: string, localFile: string): (r: Option<string>)
    reads fs
    ensures r.None? <==> fs.Exists(externalFile) && fs.Exists(localFile)
    ensures r.Some? ==> !fs.Exists(r.value) && (r.value == externalFile || r.value == localFile)
    ensures !fs.Exists(externalFile) ==> r == Some(externalFile)
  {
    if !fs.Exists(externalFile) then Some(externalFile)
    else if !fs.Exists(localFile) then Some(localFile)
    else None
  }

  /** `validate_files`: true when no path is reported missing. */
  predicate ValidateFiles(fs: FileSystem, externalFile: string, localFile: string)
    reads fs
    ensures ValidateFiles(fs, externalFile, localFile) <==> fs.Exists(externalFile) && fs.Exists(localFile)
  {
    MissingFile(fs, externalFile, localFile).None?
  }

  /** Blocks are identical exactly when they hold the same text padded with
      whitespace: only leading and trailing whitespace is ignored. */
  lemma IdenticalIffSamePaddedText(a: string, b: string)
    ensures AreBlocksIdentical(a, b) <==>
      exists m, i, j :: IsStripped(m) && Padded(a, m, i) && Padded(b, m, j)
  {
    if AreBlocksIdentical(a, b) {
      StripPadded(a);
      StripPadded(b);
      StripIsStripped(a);
      assert Padded(a, Strip(a), LeadingSpace(a)) && Padded(b, Strip(a), LeadingSpace(b));
    }
    if exists m, i, j :: IsStripped(m) && Padded(a, m, i) && Padded(b, m, j) {
      var m, i, j :| IsStripped(m) && Padded(a, m, i) && Padded(b, m, j);
      StripUnique(a, m, i);
      StripUnique(b, m, j);
    }
  }

  /** Being identical is an equivalence: reflexive, symmetric, transitive. */
  lemma IdenticalIsEquivalence(a: string, b: string, c: string)
    ensures AreBlocksIdentical(a, a)
    ensures AreBlocksIdentical(a, b) ==> AreBlocksIdentical(b, a)
    ensures AreBlocksIdentical(a, b) && AreBlocksIdentical(b, c) ==> AreBlocksIdentical(a, c)
  {
  }

  /** Surrounding whitespace does not matter, inner whitespace does. */
  lemma IdenticalExamples()
    ensures AreBlocksIdentical(" x\n", "x")
    ensures !AreBlocksIdentical("x\n\ny", "xy")
  {
    StripUnique(" x\n", "x", 1);
    StripOfStripped("x");
    StripOfStripped("x\n\ny");
    StripOfStripped("xy");
  }

  /** Extracting both blocks and finding them identical is the extractor's
      compare_blocks on the two file contents with the local path's type. */
  lemma ExtractBlocksThenCompare(files: map<string, string>, externalFile: string, localFile: string)
    ensures
      (ExtractBlocks(files, externalFile, localFile).Some? &&
       var res := ExtractBlocks(files, externalFile, localFile).value; var e, l := res.0, res.1;
       AreBlocksIdentical(e, l))
      <==>
      (&& externalFile in files && localFile in files
       && DetermineBlockType(localFile).Some?
       && CompareBlocks(files[externalFile], files[localFile], DetermineBlockType(localFile).value, localFile))
  {
    var r := ExtractBlocks(files, externalFile, localFile);
    if r.Some? {
      StripOfStripped(r.value.0);
      StripOfStripped(r.value.1);
    }
  }

  /** Blocks can be extracted only from files that pass validate_files. */
  lemma ExtractedFilesAreValid(fs: FileSystem, externalFile: string, localFile: string)
    requires ExtractBlocks(fs.files, externalFile, localFile).Some?
    ensures ValidateFiles(fs, externalFile, localFile)
  {
  }
}

=== FILE: block_extractor.dfy ===
/**
 * The marker-delimited block engine of the rules tool (class BlockExtractor).
 *
 * A rules file holds blocks that start with a marker line such as
 * `### BEGIN SYSTEM` and run up to the next `### BEGIN` or to the end of the
 * text. The block type of a file comes from the directory that follows the
 * `clinerules` directory in its path; the marker of a LANGUAGE block carries
 * the language tag taken from the file name.
 *
 * The source passes block types around as strings; the model uses a
 * datatype of the four known types plus `Unknown` for any other string, and
 * the string is its Name().
 */
module BlockExtractor {
  import opened Options
  import opened Text

  /** The four keys of the class constant BLOCK_TYPES (there is no CLINE
      type), and `Unknown` for a string that is none of them: `Unknown(name)`
      is meant only with a `name` for which `IsUnknownName` holds, and
      determine_block_type never produces it. */
  datatype BlockType = General | Language | System | Project | Unknown(name: string)
  {
    function Name(): string
    {
      match this
      case General => "GENERAL"
      case Language => "LANGUAGE"
      case System => "SYSTEM"
      case Project => "PROJECT"
      case Unknown(name) => name
    }
  }

  /** The prefix every marker starts with; the next one ends a block. */
  const BEGIN := "### BEGIN"

  /** The path separator (os.sep), fixed to '/'. */
  const SEP := '/'

  /** The directory segment after which the block-type directory follows. */
  const ANCHOR := "clinerules"

  /** The literal parts of the pattern `clinerules_language_(\w+)\.md`. */
  const LANGUAGE_PREFIX := "clinerules_language_"
  const LANGUAGE_SUFFIX := ".md"

  // ---------------------------------------------------------------------------
  // determine_block_type
  // ---------------------------------------------------------------------------

  /** The block type named by the directory after `clinerules`; only four
      directory names are known, so `cline` (and anything else) gives None. */
  function DirectoryType(segment: string): (r: Option<BlockType>)
    ensures r.Some? <==> segment in {"general", "languages", "system", "project"}
    ensures r.Some? ==> !r.value.Unknown?
    ensures r.Some? && r.value != Language ==> Lower(r.value.Name()) == segment
    ensures r == Some(Language) <==> segment == "languages"
  {
    if segment == "general" then Some(General)
    else if segment == "languages" then Some(Language)
    else if segment == "system" then Some(System)
    else if segment == "project" then Some(Project)
    else None
  }

  /** The index of the first occurrence of `x` in `xs` (Python's list.index). */
  function FirstIndex(xs: seq<string>, x: string): (i: nat)
    requires x in xs
    ensures i < |xs| && xs[i] == x && forall j :: 0 <= j < i ==> xs[j] != x
  {
    if xs[0] == x then 0 else 1 + FirstIndex(xs[1..], x)
  }

  /** The block type of a rule file, read from the segment that follows the
      first `clinerules` segment of the lower-cased path. */
  function DetermineBlockType(path: string): (r: Option<BlockType>)
    ensures ANCHOR !in Split(Lower(path), SEP) ==> r.None?
  {
    var parts := Split(Lower(path), SEP);
    if ANCHOR in parts then
      var i := FirstIndex(parts, ANCHOR);
      if |parts| > i + 1 then DirectoryType(parts[i + 1]) else None
    else None
  }

  /** The path `<root>/clinerules/<dir>/<name>`. */
  function RulesPath(root: string, dir: string, name: string): string
  {
    root + [SEP] + (ANCHOR + [SEP] + (dir + [SEP] + name))
  }

  /** Lower-casing a rules path lower-cases its pieces; the anchor and the
      separators are already lower case. */
  lemma LowerOfRulesPath(root: string, dir: string, name: string)
    ensures Lower(RulesPath(root, dir, name)) == RulesPath(Lower(root), Lower(dir), Lower(name))
  {
    LowerAppend(root + [SEP], ANCHOR + [SEP] + (dir + [SEP] + name));
    LowerAppend(root, [SEP]);
    LowerAppend(ANCHOR + [SEP], dir + [SEP] + name);
    LowerAppend(ANCHOR, [SEP]);
    LowerAppend(dir + [SEP], name);
    LowerAppend(dir, [SEP]);
    assert Lower(ANCHOR) == ANCHOR;
    assert Lower([SEP]) == [SEP];
  }

  /** Splitting a rules path gives the root's parts, the anchor, the
      directory and the name's parts. */
  lemma SplitOfRulesPath(root: string, dir: string, name: string)
    requires SEP !in dir
    ensures Split(RulesPath(root, dir, name), SEP)
         == Split(root, SEP) + ([ANCHOR] + ([dir] + Split(name, SEP)))
  {
    SplitAfterPart(dir, name, SEP);
    assert SEP !in ANCHOR;
    SplitAfterPart(ANCHOR, dir + [SEP] + name, SEP);
    SplitConcat(root, ANCHOR + [SEP] + (dir + [SEP] + name), SEP);
  }

  /** The first index of `x` lies past any prefix that does not hold it. */
  lemma {:induction false} FirstIndexAfter(front: seq<string>, rest: seq<string>, x: string)
    requires x !in front && |rest| > 0 && rest[0] == x
    ensures FirstIndex(front + rest, x) == |front|
  {
    if front != [] {
      assert (front + rest)[1..] == front[1..] + rest;
      FirstIndexAfter(front[1..], rest, x);
    }
  }

  /** For a path laid out as `<root>/clinerules/<dir>/<name>`, whose root has no
      `clinerules` segment, the block type is the one `<dir>` names, whatever
      the case of its letters; `cline` and unknown directories give None. */
  lemma BlockTypeOfRulesPath(root: string, dir: string, name: string)
    requires ANCHOR !in Split(Lower(root), SEP)
    requires SEP !in dir
    ensures DetermineBlockType(RulesPath(root, dir, name)) == DirectoryType(Lower(dir))
  {
    var ld := Lower(dir);
    LowerOfRulesPath(root, dir, name);
    forall k | 0 <= k < |ld| ensures ld[k] != SEP {
      assert dir[k] != SEP;
    }
    SplitOfRulesPath(Lower(root), ld, Lower(name));
    FirstIndexAfter(Split(Lower(root), SEP), [ANCHOR] + ([ld] + Split(Lower(name), SEP)), ANCHOR);
  }

  // ---------------------------------------------------------------------------
  // The language tag: re.search(r"clinerules_language_(\w+)\.md", filename)
  // ---------------------------------------------------------------------------

  /** Python's `\w`, restricted to ASCII. */
  predicate IsWordChar(c: char)
  {
    ('a' <= c <= 'z') || ('A' <= c <= 'Z') || ('0' <= c <= '9') || c == '_'
  }

  predicate IsWord(t: string)
  {
    forall k :: 0 <= k < |t| ==> IsWordChar(t[k])
  }

  /** The longest run of word characters starting at `k` (what the greedy
      `\w+` consumes). */
  function WordRun(s: string, k: nat): (r: string)
    requires k <= |s|
    ensures k + |r| <= |s| && s[k..k + |r|] == r && IsWord(r)
    ensures k + |r| == |s| || !IsWordChar(s[k + |r|])
    decreases |s| - k
  {
    if k < |s| && IsWordChar(s[k]) then [s[k]] + WordRun(s, k + 1) else []
  }

  /** `filename` holds `clinerules_language_<t>.md` at index `i`, `t` a word. */
  predicate IsLanguageFileName(filename: string, i: int, t: string)
  {
    |t| > 0 && IsWord(t) && OccursAt(filename, LANGUAGE_PREFIX + t + LANGUAGE_SUFFIX, i)
  }

  /** The regular expression matches at index `i`: the prefix, then the greedy
      word run (which cannot give characters back, since `.` is no word
      character), then `.md`. */
  predicate LanguageMatchAt(filename: string, i: int)
  {
    && OccursAt(filename, LANGUAGE_PREFIX, i)
    && var t := WordRun(filename, i + |LANGUAGE_PREFIX|);
       |t| > 0 && OccursAt(filename, LANGUAGE_SUFFIX, i + |LANGUAGE_PREFIX| + |t|)
  }

  /** The leftmost match at or after `k`. */
  function LanguageMatchFrom(filename: string, k: nat): (r: Option<nat>)
    ensures r.Some? ==> k <= r.value && LanguageMatchAt(filename, r.value)
    ensures r.Some? ==> forall j :: k <= j < r.value ==> !LanguageMatchAt(filename, j)
    ensures r.None? ==> forall j :: k <= j ==> !LanguageMatchAt(filename, j)
    decreases |filename| - k
  {
    if k >= |filename| then None
    else if LanguageMatchAt(filename, k) then Some(k)
    else LanguageMatchFrom(filename, k + 1)
  }

  /** `match.group(1)` of the leftmost match, or None when there is no match. */
  function LanguageTag(filename: string): (r: Option<string>)
    ensures r.Some? ==> |r.value| > 0 && IsWord(r.value)
  {
    match LanguageMatchFrom(filename, 0)
    case Some(i) => Some(WordRun(filename, i + |LANGUAGE_PREFIX|))
    case None => None
  }

  /** A word followed by a non-word character (or the end) is the word run
      that starts where it does. */
  lemma {:induction false} WordRunUnique(s: string, k: nat, t: string)
    decreases |t|
    requires IsWord(t) && OccursAt(s, t, k)
    requires k + |t| == |s| || !IsWordChar(s[k + |t|])
    ensures WordRun(s, k) == t
  {
    if t != [] {
      assert s[k] == t[0];
      assert OccursAt(s, t[1..], k + 1) by {
        assert s[k + 1..k + 1 + |t[1..]|] == s[k..k + |t|][1..];
      }
      WordRunUnique(s, k + 1, t[1..]);
      assert [t[0]] + t[1..] == t;
    }
  }

  /** An occurrence of `clinerules_language_<t>.md` is a regex match whose
      group is exactly `t`. */
  lemma LanguageMatchIsFileName(filename: string, i: int, t: string)
    requires IsLanguageFileName(filename, i, t)
    ensures LanguageMatchAt(filename, i) && WordRun(filename, i + |LANGUAGE_PREFIX|) == t
  {
    var a := i + |LANGUAGE_PREFIX|;
    OccursConcat(filename, LANGUAGE_PREFIX + t, LANGUAGE_SUFFIX, i);
    OccursConcat(filename, LANGUAGE_PREFIX, t, i);
    assert filename[a + |t|] == filename[a + |t|..a + |t| + |LANGUAGE_SUFFIX|][0] == '.';
    WordRunUnique(filename, a, t);
  }

  /** Every match is such an occurrence. */
  lemma MatchHasFileName(filename: string, i: int)
    requires LanguageMatchAt(filename, i)
    ensures IsLanguageFileName(filename, i, WordRun(filename, i + |LANGUAGE_PREFIX|))
  {
    var t := WordRun(filename, i + |LANGUAGE_PREFIX|);
    OccursConcat(filename, LANGUAGE_PREFIX + t, LANGUAGE_SUFFIX, i);
    OccursConcat(filename, LANGUAGE_PREFIX, t, i);
  }

  /** The language tag is found exactly when the file name contains
      `clinerules_language_<word>.md`; it is the word of the leftmost such
      occurrence. The search is case-sensitive and runs over the whole string
      it is given. */
  lemma LanguageTagSpec(filename: string)
    ensures LanguageTag(filename).None? <==> forall i, t :: !IsLanguageFileName(filename, i, t)
    ensures LanguageTag(filename).Some? ==>
      var i := LanguageMatchFrom(filename, 0).value;
      && IsLanguageFileName(filename, i, LanguageTag(filename).value)
      && forall j, t :: j < i ==> !IsLanguageFileName(filename, j, t)
  {
    forall i, t | IsLanguageFileName(filename, i, t) ensures LanguageMatchAt(filename, i) {
      LanguageMatchIsFileName(filename, i, t);
    }
    match LanguageMatchFrom(filename, 0)
    case Some(i) => MatchHasFileName(filename, i);
    case None =>
  }

  // ---------------------------------------------------------------------------
  // get_start_pattern
  // ---------------------------------------------------------------------------

  /** A type name that get_start_pattern does not know: none of the four keys. */
  predicate IsUnknownName(name: string)
  {
    name != "GENERAL" && name != "LANGUAGE" && name != "SYSTEM" && name != "PROJECT"
  }

  /** A marker begins with `### BEGIN`, has more after it, and does not end in
      whitespace. */
  predicate IsMarker(m: string)
  {
    |BEGIN| < |m| && m[..|BEGIN|] == BEGIN && !IsSpace(m[|m| - 1])
  }

  /** The start marker of a block of type `blockType` in the file `filename`;
      only a LANGUAGE block can lack one, when the file name has no tag. */
  function StartPattern(blockType: BlockType, filename: string): (r: Option<string>)
    ensures r.None? <==> blockType.Unknown? || (blockType == Language && LanguageTag(filename).None?)
    ensures r.Some? ==> IsMarker(r.value)
    ensures blockType == Language && LanguageTag(filename).Some? ==>
      r == Some("### BEGIN LANGUAGE " + Upper(LanguageTag(filename).value))
  {
    match blockType
    case Language =>
      (match LanguageTag(filename)
       case Some(tag) =>
         var m := "### BEGIN LANGUAGE " + Upper(tag);
         assert IsWordChar(tag[|tag| - 1]);
         assert m[|m| - 1] == UpperChar(tag[|tag| - 1]);
         Some(m)
       case None => None)
    case General => Some("### BEGIN GENERAL RULES")
    case System => Some("### BEGIN " + blockType.Name())
    case Project => Some("### BEGIN " + blockType.Name())
    case Unknown(_) => None
  }

  /** The fixed markers: GENERAL has the word RULES after it, SYSTEM and
      PROJECT carry their own name. */
  lemma FixedMarkers(filename: string)
    ensures StartPattern(General, filename) == Some("### BEGIN GENERAL RULES")
    ensures StartPattern(System, filename) == Some("### BEGIN SYSTEM")
    ensures StartPattern(Project, filename) == Some("### BEGIN PROJECT")
  {
    assert "### BEGIN " + System.Name() == "### BEGIN SYSTEM";
    assert "### BEGIN " + Project.Name() == "### BEGIN PROJECT";
  }

  /** A LANGUAGE marker carries the upper-cased tag of a file named
      `clinerules_language_<tag>.md`. */
  lemma LanguageMarker(tag: string)
    requires |tag| > 0 && IsWord(tag)
    ensures StartPattern(Language, LANGUAGE_PREFIX + tag + LANGUAGE_SUFFIX)
         == Some("### BEGIN LANGUAGE " + Upper(tag))
  {
    var f := LANGUAGE_PREFIX + tag + LANGUAGE_SUFFIX;
    assert IsLanguageFileName(f, 0, tag);
    LanguageMatchIsFileName(f, 0, tag);
    assert LanguageMatchFrom(f, 0) == Some(0);
  }

  // ---------------------------------------------------------------------------
  // The search for one marker
  // ---------------------------------------------------------------------------

  /** `(s, e)` is the block of marker `m` in `content`: `s` is the first
      occurrence of `m`, no `### BEGIN` starts between the end of the marker
      and `e`, and `e` is either the end of the text or the start of the next
      `### BEGIN`. */
  predicate IsBlockSpan(content: string, m: string, s: int, e: int)
  {
    && OccursAt(content, m, s)
    && (forall j :: 0 <= j < s ==> !OccursAt(content, m, j))
    && s + |m| <= e <= |content|
    && (forall k :: s + |m| <= k < e ==> !OccursAt(content, BEGIN, k))
    && (e < |content| ==> OccursAt(content, BEGIN, e))
  }

  /** The body of find_block_bounds once the marker is known. */
  function MarkerBounds(content: string, m: string): (r: Option<(nat, nat)>)
    ensures r.Some? ==> r.value.0 + |m| <= r.value.1 <= |content|
  {
    match Find(content, m)
    case None => None
    case Some(s) =>
      var remaining := content[s..];
      match Find(remaining[|m|..], BEGIN)
      case Some(n) => Some((s, s + |m| + n))
      case None => Some((s, |content|))
  }

  /** `block_content` after the optional cut: when another `### BEGIN`
      follows the marker, the text before it, stripped; otherwise unchanged. */
  function CutAtNextBegin(blockContent: string, markerLength: nat): string
    requires markerLength <= |blockContent|
  {
    match Find(blockContent[markerLength..], BEGIN)
    case Some(n) => Strip(blockContent[..markerLength + n])
    case None => blockContent
  }

  /** The body of extract_block once the marker is known: cut at the next
      `### BEGIN` after the marker (stripping that piece) and strip again. */
  function MarkerExtract(content: string, m: string): (r: Option<string>)
    ensures r.Some? ==> IsStripped(r.value)
  {
    match Find(content, m)
    case None => None
    case Some(s) =>
      var cut := CutAtNextBegin(content[s..], |m|);
      StripIsStripped(cut);
      Some(Strip(cut))
  }

  /** The bounds fail exactly when the marker does not occur; otherwise they
      form the block span. */
  lemma MarkerBoundsSpec(content: string, m: string)
    ensures MarkerBounds(content, m).None? <==> forall j :: !OccursAt(content, m, j)
    ensures MarkerBounds(content, m).Some? ==>
      IsBlockSpan(content, m, MarkerBounds(content, m).value.0, MarkerBounds(content, m).value.1)
  {
    var f := Find(content, m);
    if f.Some? {
      var g := Find(content[f.value..][|m|..], BEGIN);
      if g.Some? {
        BoundsCutAtNextMarker(content, m, f.value, g.value);
      } else {
        BoundsRunToEnd(content, m, f.value);
      }
    }
  }

  /** The bounds when another `### BEGIN` follows the marker. */
  lemma BoundsCutAtNextMarker(content: string, m: string, s: nat, n: nat)
    requires Find(content, m) == Some(s)
    requires Find(content[s..][|m|..], BEGIN) == Some(n)
    ensures MarkerBounds(content, m) == Some((s, s + |m| + n))
    ensures IsBlockSpan(content, m, s, s + |m| + n)
  {
    var a := s + |m|;
    var rest := content[s..][|m|..];
    assert rest == content[a..];
    forall k | a <= k < a + n ensures !OccursAt(content, BEGIN, k) {
      OccursInSuffix(content, BEGIN, a, k - a);
    }
    OccursInSuffix(content, BEGIN, a, n);
  }

  /** The bounds when the block runs to the end of the text. */
  lemma BoundsRunToEnd(content: string, m: string, s: nat)
    requires Find(content, m) == Some(s)
    requires Find(content[s..][|m|..], BEGIN).None?
    ensures MarkerBounds(content, m) == Some((s, |content|))
    ensures IsBlockSpan(content, m, s, |content|)
  {
    var a := s + |m|;
    var rest := content[s..][|m|..];
    assert rest == content[a..];
    forall k | a <= k < |content| ensures !OccursAt(content, BEGIN, k) {
      OccursInSuffix(content, BEGIN, a, k - a);
    }
  }

  /** Conversely, the block span determines the bounds. */
  lemma SpanDeterminesBounds(content: string, m: string, s: nat, e: nat)
    requires IsBlockSpan(content, m, s, e)
    ensures MarkerBounds(content, m) == Some((s, e))
  {
    FindIsFirst(content, m, s);
    var a := s + |m|;
    var rest := content[s..][|m|..];
    assert rest == content[a..];
    forall j: nat | a + j < e ensures !OccursAt(rest, BEGIN, j) {
      OccursInSuffix(content, BEGIN, a, j);
    }
    if e < |content| {
      OccursInSuffix(content, BEGIN, a, e - a);
      FindIsFirst(rest, BEGIN, e - a);
    } else {
      forall j: nat ensures !OccursAt(rest, BEGIN, j) {
        OccursInSuffix(content, BEGIN, a, j);
      }
    }
  }

  /** Extraction fails exactly when the bounds do, and otherwise is the
      stripped text between the bounds: the double strip of the first branch
      changes nothing. */
  lemma MarkerExtractIsStrippedSpan(content: string, m: string)
    ensures MarkerExtract(content, m).None? <==> MarkerBounds(content, m).None?
    ensures MarkerBounds(content, m).Some? ==>
      MarkerExtract(content, m) == Some(Strip(content[MarkerBounds(content, m).value.0..MarkerBounds(content, m).value.1]))
  {
    var f := Find(content, m);
    if f.Some? {
      var g := Find(content[f.value..][|m|..], BEGIN);
      var e := if g.Some? then f.value + |m| + g.value else |content|;
      if g.Some? {
        ExtractCutAtNextMarker(content, m, f.value, g.value);
      } else {
        ExtractRunsToEnd(content, m, f.value);
      }
      assert MarkerBounds(content, m) == Some((f.value, e));
      assert MarkerExtract(content, m) == Some(Strip(content[f.value..e]));
    }
  }

  /** The case where another `### BEGIN` follows the marker. */
  lemma ExtractCutAtNextMarker(content: string, m: string, s: nat, n: nat)
    requires Find(content, m) == Some(s)
    requires Find(content[s..][|m|..], BEGIN) == Some(n)
    ensures MarkerBounds(content, m) == Some((s, s + |m| + n))
    ensures MarkerExtract(content, m) == Some(Strip(content[s..s + |m| + n]))
  {
    var e := s + |m| + n;
    CutIsStrippedPiece(content[s..], |m|, n);
    assert content[s..][..|m| + n] == content[s..e];
    StripIdempotent(content[s..e]);
  }

  lemma CutIsStrippedPiece(blockContent: string, markerLength: nat, n: nat)
    requires markerLength <= |blockContent|
    requires Find(blockContent[markerLength..], BEGIN) == Some(n)
    ensures markerLength + n <= |blockContent|
    ensures CutAtNextBegin(blockContent, markerLength) == Strip(blockContent[..markerLength + n])
  {
  }

  /** The case where the block runs to the end of the text. */
  lemma ExtractRunsToEnd(content: string, m: string, s: nat)
    requires Find(content, m) == Some(s)
    requires Find(content[s..][|m|..], BEGIN).None?
    ensures MarkerBounds(content, m) == Some((s, |content|))
    ensures MarkerExtract(content, m) == Some(Strip(content[s..|content|]))
  {
    assert content[s..] == content[s..|content|];
  }

  /** `b` starts with the marker `m` and holds no further `### BEGIN` after it. */
  predicate IsSingleBlock(b: string, m: string)
  {
    |m| <= |b| && b[..|m|] == m && forall k :: |m| <= k < |b| ==> !OccursAt(b, BEGIN, k)
  }

  /** The text of a block span is a single block. */
  lemma SpanIsSingleBlock(content: string, m: string, s: nat, e: nat)
    requires IsBlockSpan(content, m, s, e)
    ensures IsSingleBlock(content[s..e], m)
  {
    var w := content[s..e];
    assert w[..|m|] == content[s..s + |m|];
    forall k | |m| <= k < |w| ensures !OccursAt(w, BEGIN, k) {
      if k + |BEGIN| <= |w| {
        assert !OccursAt(content, BEGIN, s + k);
        forall j | k <= j < k + |BEGIN| ensures w[j] == content[s + j] { }
        assert w[k..k + |BEGIN|] == content[s + k..s + k + |BEGIN|];
      }
    }
  }

  /** Stripping a single block whose marker has no surrounding whitespace
      keeps it a single block. */
  lemma StripSingleBlock(w: string, m: string)
    requires IsMarker(m) && IsSingleBlock(w, m)
    ensures IsSingleBlock(Strip(w), m) && |Strip(w)| > 0
  {
    assert m[0] == m[..|BEGIN|][0] == '#';
    StripKeepsHead(w, m);
    var b := Strip(w);
    assert b[..|m|] == w[..|m|];
    forall k | |m| <= k < |b| ensures !OccursAt(b, BEGIN, k) {
      if k + |BEGIN| <= |b| {
        assert !OccursAt(w, BEGIN, k);
        assert b[k..k + |BEGIN|] == w[k..k + |BEGIN|];
      }
    }
  }

  /** An extracted block starts with the marker (so it is never empty), has
      no surrounding whitespace, and holds no other `### BEGIN`. */
  lemma ExtractedIsSingleBlock(content: string, m: string)
    requires IsMarker(m) && MarkerExtract(content, m).Some?
    ensures var b := MarkerExtract(content, m).value;
      IsSingleBlock(b, m) && IsStripped(b) && |b| > 0
  {
    MarkerExtractIsStrippedSpan(content, m);
    MarkerBoundsSpec(content, m);
    var res := MarkerBounds(content, m).value; var s, e := res.0, res.1;
    SpanIsSingleBlock(content, m, s, e);
    StripSingleBlock(content[s..e], m);
  }

  /** Extracting from a text that is a single block gives the stripped text. */
  lemma ExtractOfSingleBlock(b: string, m: string)
    requires IsSingleBlock(b, m)
    ensures MarkerExtract(b, m) == Some(Strip(b))
  {
    assert b[0..|m|] == m;
    assert IsBlockSpan(b, m, 0, |b|);
    SpanDeterminesBounds(b, m, 0, |b|);
    MarkerExtractIsStrippedSpan(b, m);
    assert b[0..|b|] == b;
  }

  /** Cutting a text in three and joining the pieces gives it back. */
  lemma SpliceOwnSpan(content: string, s: nat, e: nat)
    requires s <= e <= |content|
    ensures content[..s] + content[s..e] + content[e..] == content
  {
  }

  /** `### BEGIN` cannot overlap itself: two occurrences are at least nine
      characters apart. */
  lemma BeginNoSelfOverlap(x: string, i: int, j: int)
    requires OccursAt(x, BEGIN, j) && i < j < i + |BEGIN|
    ensures !OccursAt(x, BEGIN, i)
  {
    var d := j - i;
    assert x[j] == x[j..j + |BEGIN|][0] == '#';
    assert x[j + 3] == x[j..j + |BEGIN|][3] == ' ';
    if 0 <= i && i + |BEGIN| <= |x| {
      if d < 3 {
        assert x[i..i + |BEGIN|][d + 3] == ' ' != BEGIN[d + 3];
      } else {
        assert x[i..i + |BEGIN|][d] == '#' != BEGIN[d];
      }
    }
  }

  /** Splicing a single block `nb` of marker `m` in place of the block span
      `(s, e)` gives a text whose block span is `(s, s + |nb|)`: the text
      around it can neither shift the marker nor cut the new block short. */
  lemma SpliceIsBlockSpan(content: string, nb: string, m: string, s: nat, e: nat)
    requires IsBlockSpan(content, m, s, e)
    requires IsSingleBlock(nb, m)
    ensures IsBlockSpan(content[..s] + nb + content[e..], m, s, s + |nb|)
  {
    var n := content[..s] + nb + content[e..];
    var e' := s + |nb|;
    assert n[s..e'] == nb;
    assert OccursAt(n, m, s) by {
      assert n[s..s + |m|] == nb[..|m|];
    }
    forall k | 0 <= k < s + |m| ensures n[k] == content[k] {
      if s <= k {
        assert n[k] == nb[..|m|][k - s] && content[k] == content[s..s + |m|][k - s];
      }
    }
    forall j | 0 <= j < s ensures !OccursAt(n, m, j) {
      assert !OccursAt(content, m, j);
      assert n[j..j + |m|] == content[j..j + |m|];
    }
    if e < |content| {
      assert n[e'..e' + |BEGIN|] == content[e..e + |BEGIN|];
    }
    forall k | s + |m| <= k < e' ensures !OccursAt(n, BEGIN, k) {
      if k + |BEGIN| <= e' {
        assert n[k..k + |BEGIN|] == nb[k - s..k - s + |BEGIN|];
        assert !OccursAt(nb, BEGIN, k - s);
      } else if k + |BEGIN| <= |n| {
        BeginNoSelfOverlap(n, k, e');
      }
    }
  }

  /** After the splice, the block extracted is `strip(nb)`. */
  lemma SpliceThenExtract(content: string, nb: string, m: string)
    requires MarkerBounds(content, m).Some?
    requires IsSingleBlock(nb, m)
    ensures var res := MarkerBounds(content, m).value; var s, e := res.0, res.1;
      MarkerExtract(content[..s] + nb + content[e..], m) == Some(Strip(nb))
  {
    MarkerBoundsSpec(content, m);
    var res := MarkerBounds(content, m).value; var s, e := res.0, res.1;
    var n := content[..s] + nb + content[e..];
    SpliceIsBlockSpan(content, nb, m, s, e);
    SpanDeterminesBounds(n, m, s, s + |nb|);
    MarkerExtractIsStrippedSpan(n, m);
    assert n[s..s + |nb|] == nb;
  }

  // ---------------------------------------------------------------------------
  // find_block_bounds, extract_block, replace_block, compare_blocks
  // ---------------------------------------------------------------------------

  /** `find_block_bounds`: the offsets of the block, or None. */
  function FindBlockBounds(content: string, blockType: BlockType, filename: string): (r: Option<(nat, nat)>)
    ensures r.Some? ==> StartPattern(blockType, filename).Some?
    ensures r.Some? ==> r.value.0 + |StartPattern(blockType, filename).value| <= r.value.1 <= |content|
  {
    match StartPattern(blockType, filename)
    case None => None
    case Some(m) => MarkerBounds(content, m)
  }

  /** `extract_block`: the stripped block, or None. */
  function ExtractBlock(content: string, blockType: BlockType, filename: string): (r: Option<string>)
    ensures r.Some? ==> IsStripped(r.value)
  {
    match StartPattern(blockType, filename)
    case None => None
    case Some(m) => MarkerExtract(content, m)
  }

  /** `replace_block`: the text before the block, the new block verbatim, and
      the text after the block. */
  function ReplaceBlock(content: string, newBlock: string, blockType: BlockType, filename: string): (r: Option<string>)
    ensures r.Some? <==> FindBlockBounds(content, blockType, filename).Some?
    ensures r.Some? ==>
      var res := FindBlockBounds(content, blockType, filename).value; var s, e := res.0, res.1;
      && |r.value| == |content| - (e - s) + |newBlock|
      && r.value[..s] == content[..s]
      && r.value[s..s + |newBlock|] == newBlock
      && r.value[s + |newBlock|..] == content[e..]
  {
    match FindBlockBounds(content, blockType, filename)
    case None => None
    case Some((s, e)) => Some(content[..s] + newBlock + content[e..])
  }

  /** `compare_blocks`: true exactly when both blocks are found and equal;
      a missing block on either side makes it false. */
  function CompareBlocks(externalContent: string, localContent: string, blockType: BlockType, filename: string): (r: bool)
    ensures r <==>
      && ExtractBlock(externalContent, blockType, filename).Some?
      && ExtractBlock(localContent, blockType, filename).Some?
      && ExtractBlock(externalContent, blockType, filename).value == ExtractBlock(localContent, blockType, filename).value
  {
    var externalBlock := ExtractBlock(externalContent, blockType, filename);
    var localBlock := ExtractBlock(localContent, blockType, filename);
    if externalBlock.None? || localBlock.None? then false
    else externalBlock.value == localBlock.value
  }

  /** find_block_bounds fails exactly when the block type has no marker or the
      marker does not occur; when it succeeds the offsets form the block span. */
  lemma FindBlockBoundsSpec(content: string, blockType: BlockType, filename: string)
    ensures FindBlockBounds(content, blockType, filename).None? <==>
      || StartPattern(blockType, filename).None?
      || forall j :: !OccursAt(content, StartPattern(blockType, filename).value, j)
    ensures FindBlockBounds(content, blockType, filename).Some? ==>
      var res := FindBlockBounds(content, blockType, filename).value; var s, e := res.0, res.1;
      IsBlockSpan(content, StartPattern(blockType, filename).value, s, e)
  {
    if StartPattern(blockType, filename).Some? {
      MarkerBoundsSpec(content, StartPattern(blockType, filename).value);
    }
  }

  /** extract_block fails exactly when find_block_bounds does; otherwise it is
      the stripped text between the bounds. */
  lemma ExtractBlockIsStrippedSpan(content: string, blockType: BlockType, filename: string)
    ensures ExtractBlock(content, blockType, filename).None? <==> FindBlockBounds(content, blockType, filename).None?
    ensures FindBlockBounds(content, blockType, filename).Some? ==>
      var res := FindBlockBounds(content, blockType, filename).value; var s, e := res.0, res.1;
      ExtractBlock(content, blockType, filename) == Some(Strip(content[s..e]))
  {
    if StartPattern(blockType, filename).Some? {
      MarkerExtractIsStrippedSpan(content, StartPattern(blockType, filename).value);
    }
  }

  /** An extracted block is a single block of the start marker, never empty,
      and extracting from it again gives it back. */
  lemma ExtractIdempotent(content: string, blockType: BlockType, filename: string)
    requires ExtractBlock(content, blockType, filename).Some?
    ensures var b := ExtractBlock(content, blockType, filename).value;
      && |b| > 0
      && IsSingleBlock(b, StartPattern(blockType, filename).value)
      && ExtractBlock(b, blockType, filename) == Some(b)
  {
    var m := StartPattern(blockType, filename).value;
    var b := MarkerExtract(content, m).value;
    ExtractedIsSingleBlock(content, m);
    ExtractOfSingleBlock(b, m);
    StripOfStripped(b);
  }

  /** Putting back the text that was between the bounds restores the content. */
  lemma ReplaceWithOwnSpan(content: string, blockType: BlockType, filename: string)
    requires FindBlockBounds(content, blockType, filename).Some?
    ensures var res := FindBlockBounds(content, blockType, filename).value; var s, e := res.0, res.1;
      ReplaceBlock(content, content[s..e], blockType, filename) == Some(content)
  {
    var res := FindBlockBounds(content, blockType, filename).value; var s, e := res.0, res.1;
    SpliceOwnSpan(content, s, e);
  }

  /** Replacing a block by any single block `nb` of the same marker makes the
      block extracted afterwards `strip(nb)`. */
  lemma ReplaceThenExtract(content: string, nb: string, blockType: BlockType, filename: string)
    requires FindBlockBounds(content, blockType, filename).Some?
    requires IsSingleBlock(nb, StartPattern(blockType, filename).value)
    ensures ReplaceBlock(content, nb, blockType, filename).Some?
    ensures ExtractBlock(ReplaceBlock(content, nb, blockType, filename).value, blockType, filename) == Some(Strip(nb))
  {
    SpliceThenExtract(content, nb, StartPattern(blockType, filename).value);
  }

  /** Replacing a block by the block extracted from the same text leaves the
      extracted block unchanged. */
  lemma ExtractReplaceRoundTrip(content: string, blockType: BlockType, filename: string)
    requires ExtractBlock(content, blockType, filename).Some?
    ensures var b := ExtractBlock(content, blockType, filename).value;
      && ReplaceBlock(content, b, blockType, filename).Some?
      && ExtractBlock(ReplaceBlock(content, b, blockType, filename).value, blockType, filename) == Some(b)
  {
    var b := ExtractBlock(content, blockType, filename).value;
    ExtractBlockIsStrippedSpan(content, blockType, filename);
    ExtractIdempotent(content, blockType, filename);
    ReplaceThenExtract(content, b, blockType, filename);
    StripOfStripped(b);
  }

  /** After a single block is written over the block of `content`, comparing the
      result with that single block finds the two blocks identical. */
  lemma CompareAfterReplace(content: string, nb: string, blockType: BlockType, filename: string)
    requires FindBlockBounds(content, blockType, filename).Some?
    requires IsSingleBlock(nb, StartPattern(blockType, filename).value)
    ensures ReplaceBlock(content, nb, blockType, filename).Some?
    ensures CompareBlocks(ReplaceBlock(content, nb, blockType, filename).value, nb, blockType, filename)
  {
    ReplaceThenExtract(content, nb, blockType, filename);
    ExtractOfSingleBlock(nb, StartPattern(blockType, filename).value);
  }

  /** The SYSTEM marker is found inside `### BEGIN SYSTEMX`: the search is a
      plain substring search, not a whole-line match, so the SYSTEM block of
      this text is the whole text. */
  lemma SystemMarkerMatchesLongerName()
    ensures MarkerBounds("### BEGIN SYSTEMX\nfoo", "### BEGIN SYSTEM") == Some((0, 21))
  {
    var c := "### BEGIN SYSTEMX\nfoo";
    var m := "### BEGIN SYSTEM";
    assert c[..|m|] == m;
    assert IsSingleBlock(c, m);
    assert IsBlockSpan(c, m, 0, |c|);
    SpanDeterminesBounds(c, m, 0, |c|);
  }

  /** `### BEGIN` starts with `#`, so it cannot occur where another character is. */
  lemma NoBeginOffHash(x: string, k: nat)
    requires k < |x| && x[k] != '#'
    ensures !OccursAt(x, BEGIN, k)
  {
    if k + |BEGIN| <= |x| {
      assert x[k..k + |BEGIN|][0] == x[k];
    }
  }

  /** The SYSTEM block of a two-block text ends where the PROJECT marker
      begins. */
  lemma SystemBoundsExample(c: string, filename: string)
    requires c == "### BEGIN SYSTEM" + "\nfoo\n" + "### BEGIN PROJECT\nbar"
    ensures FindBlockBounds(c, System, filename) == Some((0, 21))
  {
    var m, body, next := "### BEGIN SYSTEM", "\nfoo\n", "### BEGIN PROJECT\nbar";
    FixedMarkers(filename);
    assert c[..|m|] == m;
    assert c[21..30] == next[..9] == BEGIN;
    forall k | |m| <= k < 21
      ensures !OccursAt(c, BEGIN, k)
    {
      assert c[k] == body[k - |m|];
      NoBeginOffHash(c, k);
    }
    assert IsBlockSpan(c, m, 0, 21);
    SpanDeterminesBounds(c, m, 0, 21);
  }

  /** Writing a block over the SYSTEM block of a two-block text: the span
      replaced runs up to the next `### BEGIN`, so the newline before it goes
      with the old block and the new block is joined to the PROJECT marker
      unless it ends in a newline of its own. The PROJECT block is untouched. */
  lemma SystemReplaceExample(c: string, filename: string)
    requires c == "### BEGIN SYSTEM\nfoo\n" + "### BEGIN PROJECT\nbar"
    ensures ReplaceBlock(c, "### BEGIN SYSTEM\nfoo2", System, filename)
         == Some("### BEGIN SYSTEM\nfoo2" + "### BEGIN PROJECT\nbar")
    ensures ReplaceBlock(c, "### BEGIN SYSTEM\nfoo2\n", System, filename)
         == Some("### BEGIN SYSTEM\nfoo2\n" + "### BEGIN PROJECT\nbar")
  {
    var block, next := "### BEGIN SYSTEM\nfoo\n", "### BEGIN PROJECT\nbar";
    assert "### BEGIN SYSTEM" + "\nfoo\n" == block;
    SystemBoundsExample(c, filename);
    assert c[..0] == [];
    assert c[21..] == next;
  }
}

=== FILE: block_updater.dfy ===
/**
 * Synchronising one block between a local rules file and an external rules
 * file (class BlockUpdater). Either direction reads the files, takes the
 * block type from the local path, and writes exactly one file: the local
 * file receives the external block, or the external file receives the
 * whole local text in place of its block.
 */
module BlockUpdater {
  import opened Options
  import opened Text
  import opened BlockExtractor
  import opened FileManager
  import opened BlockComparer

  /** The text update_local_with_external writes into the local file: the
      external file's block of the local path's type. */
  function LocalUpdate(files: map<string, string>, externalFile: string, localFile: string): (r: Option<string>)
    ensures r.Some? <==>
      && externalFile in files && DetermineBlockType(localFile).Some?
      && ExtractBlock(files[externalFile], DetermineBlockType(localFile).value, localFile).Some?
    ensures r.Some? ==>
      && r == ExtractBlock(files[externalFile], DetermineBlockType(localFile).value, localFile)
      && IsStripped(r.value)
  {
    match Read(files, externalFile)
    case None => None
    case Some(externalContent) =>
      match DetermineBlockType(localFile)
      case None => None
      case Some(blockType) => ExtractBlock(externalContent, blockType, localFile)
  }

  /** The text update_external_with_local writes into the external file: the
      external text with its block replaced by the whole local text. */
  function ExternalUpdate(files: map<string, string>, externalFile: string, localFile: string): (r: Option<string>)
    ensures r.Some? <==>
      && externalFile in files && localFile in files && DetermineBlockType(localFile).Some?
      && FindBlockBounds(files[externalFile], DetermineBlockType(localFile).value, localFile).Some?
    ensures r.Some? ==>
      r == ReplaceBlock(files[externalFile], files[localFile], DetermineBlockType(localFile).value, localFile)
  {
    match (Read(files, localFile), Read(files, externalFile))
    case (Some(localContent), Some(externalContent)) =>
      (match DetermineBlockType(localFile)
       case None => None
       case Some(blockType) => ReplaceBlock(externalContent, localContent, blockType, localFile))
    case _ => None
  }

  /** `update_local_with_external`: succeeds exactly when the external file
      is read, the local path has a block type, the external file has that
      block and the local file can be written; then the local file holds the
      block and nothing else changes. On failure nothing changes. */
  method UpdateLocalWithExternal(fs: FileSystem, externalFile: string, localFile: string) returns (ok: bool)
    requires fs.Valid()
    modifies fs
    ensures fs.Valid()
    ensures ok <==> LocalUpdate(old(fs.files), externalFile, localFile).Some? && old(fs.CanWrite(localFile))
    ensures fs.files == if ok then old(fs.files)[localFile := LocalUpdate(old(fs.files), externalFile, localFile).value]
                        else old(fs.files)
    ensures fs.dirs == old(fs.dirs) && fs.readOnly == old(fs.readOnly)
  {
    var externalContent := fs.ReadFile(externalFile);
    if externalContent.None? {
      return false;
    }
    var blockType := DetermineBlockType(localFile);
    if blockType.None? {
      return false;
    }
    var block := ExtractBlock(externalContent.value, blockType.value, localFile);
    if block.None? {
      return false;
    }
    ok := fs.WriteFile(localFile, block.value);
  }

  /** `update_external_with_local`: succeeds exactly when both files are
      read, the local path has a block type, the external file has that
      block and can be written; then the external file holds its text before
      the block, the local text, and its text after the block, and nothing
      else changes. On failure nothing changes. */
  method UpdateExternalWithLocal(fs: FileSystem, externalFile: string, localFile: string) returns (ok: bool)
    requires fs.Valid()
    modifies fs
    ensures fs.Valid()
    ensures ok <==> ExternalUpdate(old(fs.files), externalFile, localFile).Some? && old(fs.CanWrite(externalFile))
    ensures fs.files == if ok then old(fs.files)[externalFile := ExternalUpdate(old(fs.files), externalFile, localFile).value]
                        else old(fs.files)
    ensures fs.dirs == old(fs.dirs) && fs.readOnly == old(fs.readOnly)
  {
    var localContent := fs.ReadFile(localFile);
    var externalContent := fs.ReadFile(externalFile);
    if localContent.None? || externalContent.None? {
      return false;
    }
    var blockType := DetermineBlockType(localFile);
    if blockType.None? {
      return false;
    }
    var updatedContent := ReplaceBlock(externalContent.value, localContent.value, blockType.value, localFile);
    if updatedContent.None? {
      return false;
    }
    ok := fs.WriteFile(externalFile, updatedContent.value);
  }

  /** The external text after update_external_with_local: the text before
      the block, the local text verbatim, and the text after the block. */
  lemma ExternalUpdateSplices(files: map<string, string>, externalFile: string, localFile: string)
    requires ExternalUpdate(files, externalFile, localFile).Some?
    ensures externalFile in files && localFile in files && DetermineBlockType(localFile).Some?
    ensures var blockType := DetermineBlockType(localFile).value;
      && FindBlockBounds(files[externalFile], blockType, localFile).Some?
      && var res := FindBlockBounds(files[externalFile], blockType, localFile).value; var s, e := res.0, res.1;
         ExternalUpdate(files, externalFile, localFile).value
           == files[externalFile][..s] + files[localFile] + files[externalFile][e..]
  {
    var blockType := DetermineBlockType(localFile).value;
    var c := files[externalFile];
    var res := FindBlockBounds(c, blockType, localFile).value; var s, e := res.0, res.1;
    var u := ExternalUpdate(files, externalFile, localFile).value;
    var l := files[localFile];
    assert u == c[..s] + l + c[e..] by {
      assert u[..s] == c[..s] && u[s..s + |l|] == l && u[s + |l|..] == c[e..];
      assert u == u[..s] + u[s..s + |l|] + u[s + |l|..];
    }
  }

  /** After update_local_with_external, the comparer extracts the same block
      from both files: the local file now is that block. */
  lemma UpdateLocalThenIdentical(files: map<string, string>, externalFile: string, localFile: string)
    requires LocalUpdate(files, externalFile, localFile).Some?
    ensures var b := LocalUpdate(files, externalFile, localFile).value;
      && ExtractBlocks(files[localFile := b], externalFile, localFile)
           == Some((b, b, DetermineBlockType(localFile).value))
      && AreBlocksIdentical(b, b)
  {
    var blockType := DetermineBlockType(localFile).value;
    var b := LocalUpdate(files, externalFile, localFile).value;
    var files1 := files[localFile := b];
    ExtractIdempotent(files[externalFile], blockType, localFile);
    assert ExtractBlock(files1[externalFile], blockType, localFile) == Some(b);
    ExtractBlocksOf(files1, externalFile, localFile, blockType, b, b);
  }

  /** When the local file is a single block of its type, after
      update_external_with_local the comparer extracts the stripped local
      text from both files, so it finds them identical. */
  lemma UpdateExternalThenIdentical(files: map<string, string>, externalFile: string, localFile: string)
    requires externalFile != localFile
    requires ExternalUpdate(files, externalFile, localFile).Some?
    requires IsSingleBlock(files[localFile], StartPattern(DetermineBlockType(localFile).value, localFile).value)
    ensures var u := ExternalUpdate(files, externalFile, localFile).value;
      var b := Strip(files[localFile]);
      && ExtractBlocks(files[externalFile := u], externalFile, localFile)
           == Some((b, b, DetermineBlockType(localFile).value))
  {
    var blockType := DetermineBlockType(localFile).value;
    var m := StartPattern(blockType, localFile).value;
    var u := ExternalUpdate(files, externalFile, localFile).value;
    var files1 := files[externalFile := u];
    ReplaceThenExtract(files[externalFile], files[localFile], blockType, localFile);
    ExtractOfSingleBlock(files[localFile], m);
    assert ExtractBlock(files1[localFile], blockType, localFile) == Some(Strip(files[localFile]));
    ExtractBlocksOf(files1, externalFile, localFile, blockType, Strip(files[localFile]), Strip(files[localFile]));
  }

  /** Updating the local file from the external one and then the external
      file from the local one leaves the external block as it was. */
  lemma LocalThenExternalKeepsBlock(files: map<string, string>, externalFile: string, localFile: string)
    requires externalFile != localFile
    requires LocalUpdate(files, externalFile, localFile).Some?
    ensures var b := LocalUpdate(files, externalFile, localFile).value;
      var files1 := files[localFile := b];
      && ExternalUpdate(files1, externalFile, localFile).Some?
      && ExtractBlock(ExternalUpdate(files1, externalFile, localFile).value,
                      DetermineBlockType(localFile).value, localFile) == Some(b)
  {
    var blockType := DetermineBlockType(localFile).value;
    ExtractReplaceRoundTrip(files[externalFile], blockType, localFile);
    ExtractBlockIsStrippedSpan(files[externalFile], blockType, localFile);
  }
}

=== FILE: file_manager.dfy ===
/**
 * The file operations of the rules tool (class FileManager).
 *
 * The file system is a `FileSystem` object whose state the operations read
 * and change: a map from file paths to their text, the set of existing
 * directories, and the set of paths that cannot be opened for writing.
 * Glob matching and path normalisation are not modelled: `ListFiles`
 * receives the paths that glob matched, in whatever order glob gave them.
 */
module FileManager {
  import opened Options
  import opened Text

  /** Reading `path` from the file map: None when there is no such file. */
  function Read(files: map<string, string>, path: string): Option<string>
  {
    if path in files then Some(files[path]) else None
  }

  // ---------------------------------------------------------------------------
  // list_files: sorted(glob(pattern))
  // ---------------------------------------------------------------------------

  /** Python's `<=` on `str`: lexicographic order by code point. */
  predicate StrLe(a: string, b: string)
    decreases |a|
  {
    |a| == 0 || (|b| > 0 && (a[0] < b[0] || (a[0] == b[0] && StrLe(a[1..], b[1..]))))
  }

  lemma {:induction false} StrLeTotal(a: string, b: string)
    ensures StrLe(a, b) || StrLe(b, a)
    decreases |a|
  {
    if |a| > 0 && |b| > 0 && a[0] == b[0] {
      StrLeTotal(a[1..], b[1..]);
    }
  }

  lemma {:induction false} StrLeTransitive(a: string, b: string, c: string)
    requires StrLe(a, b) && StrLe(b, c)
    ensures StrLe(a, c)
    decreases |a|
  {
    if |a| > 0 && a[0] == b[0] && b[0] == c[0] {
      StrLeTransitive(a[1..], b[1..], c[1..]);
    }
  }

  lemma {:induction false} StrLeAntisymmetric(a: string, b: string)
    requires StrLe(a, b) && StrLe(b, a)
    ensures a == b
    decreases |a|
  {
    if |a| > 0 {
      StrLeAntisymmetric(a[1..], b[1..]);
      assert a == [a[0]] + a[1..] && b == [b[0]] + b[1..];
    }
  }

  /** Each path is at most the next one. */
  predicate Sorted(xs: seq<string>)
    decreases |xs|
  {
    |xs| < 2 || (StrLe(xs[0], xs[1]) && Sorted(xs[1..]))
  }

  /** In a sorted list every path is at most every later one. */
  lemma {:induction false} SortedPairwise(xs: seq<string>, i: nat, j: nat)
    requires Sorted(xs) && i <= j < |xs|
    ensures StrLe(xs[i], xs[j])
    decreases |xs|
  {
    if i == j {
      StrLeTotal(xs[i], xs[i]);
    } else if i > 0 {
      SortedPairwise(xs[1..], i - 1, j - 1);
    } else {
      SortedPairwise(xs[1..], 0, j - 1);
      StrLeTransitive(xs[0], xs[1], xs[j]);
    }
  }

  /** An element of a list's multiset is at some index of the list. */
  lemma IndexOf(xs: seq<string>, x: string) returns (i: nat)
    requires x in multiset(xs)
    ensures i < |xs| && xs[i] == x
  {
    assert x in xs;
    i :| i < |xs| && xs[i] == x;
  }

  /** Two sorted permutations of each other begin with the same path, the
      least of them all. */
  lemma SortedSameHead(xs: seq<string>, ys: seq<string>)
    requires Sorted(xs) && Sorted(ys) && multiset(xs) == multiset(ys) && xs != []
    ensures ys != [] && xs[0] == ys[0]
  {
    assert xs[0] in multiset(ys);
    var j := IndexOf(ys, xs[0]);
    var i := IndexOf(xs, ys[0]);
    SortedPairwise(xs, 0, i);
    SortedPairwise(ys, 0, j);
    StrLeAntisymmetric(xs[0], ys[0]);
  }

  lemma MultisetTail(xs: seq<string>)
    requires xs != []
    ensures multiset(xs[1..]) == multiset(xs) - multiset{xs[0]}
  {
    assert xs == [xs[0]] + xs[1..];
  }

  /** A list has only one sorted arrangement: two sorted permutations of each
      other are equal. */
  lemma {:induction false} SortedUnique(xs: seq<string>, ys: seq<string>)
    requires Sorted(xs) && Sorted(ys) && multiset(xs) == multiset(ys)
    ensures xs == ys
    decreases |xs|
  {
    if xs != [] {
      SortedSameHead(xs, ys);
      MultisetTail(xs);
      MultisetTail(ys);
      SortedUnique(xs[1..], ys[1..]);
      assert xs == [xs[0]] + xs[1..] && ys == [ys[0]] + ys[1..];
    }
  }

  /** Insert `x` into a sorted list. */
  function Insert(x: string, xs: seq<string>): (r: seq<string>)
    requires Sorted(xs)
    ensures Sorted(r)
    ensures |r| == |xs| + 1
    ensures r[0] == x || (|xs| > 0 && r[0] == xs[0])
  {
    if xs == [] then [x]
    else if StrLe(x, xs[0]) then
      assert ([x] + xs)[1..] == xs;
      [x] + xs
    else
      StrLeTotal(x, xs[0]);
      var rest := Insert(x, xs[1..]);
      assert ([xs[0]] + rest)[1..] == rest;
      [xs[0]] + rest
  }

  /** Inserting adds `x` and keeps every other path. */
  lemma {:induction false} InsertPermutes(x: string, xs: seq<string>)
    requires Sorted(xs)
    ensures multiset(Insert(x, xs)) == multiset(xs) + multiset{x}
  {
    if xs != [] && !StrLe(x, xs[0]) {
      InsertPermutes(x, xs[1..]);
      assert xs == [xs[0]] + xs[1..];
    }
  }

  /** `sorted(xs)` on strings. */
  function Sort(xs: seq<string>): (r: seq<string>)
    ensures Sorted(r)
    ensures |r| == |xs|
  {
    if xs == [] then [] else Insert(xs[0], Sort(xs[1..]))
  }

  /** Sorting keeps every path, as many times as it occurs. */
  lemma {:induction false} SortPermutes(xs: seq<string>)
    ensures multiset(Sort(xs)) == multiset(xs)
  {
    if xs != [] {
      SortPermutes(xs[1..]);
      InsertPermutes(xs[0], Sort(xs[1..]));
      assert xs == [xs[0]] + xs[1..];
    }
  }

  /** `list_files`: the paths glob matched, sorted. */
  function ListFiles(matches: seq<string>): (r: seq<string>)
    ensures Sorted(r)
    ensures |r| == |matches|
  {
    Sort(matches)
  }

  /** The listing holds the same paths as glob matched, as many times each,
      in ascending order; and it is the one sorted arrangement of them,
      whatever order glob gave them in. */
  lemma ListFilesSpec(matches: seq<string>, ys: seq<string>)
    ensures multiset(ListFiles(matches)) == multiset(matches)
    ensures Sorted(ys) && multiset(ys) == multiset(matches) ==> ListFiles(matches) == ys
  {
    SortPermutes(matches);
    if Sorted(ys) && multiset(ys) == multiset(matches) {
      SortedUnique(ys, ListFiles(matches));
    }
  }

  // ---------------------------------------------------------------------------
  // merge_files
  // ---------------------------------------------------------------------------

  /** The separator merged contents are joined with: one blank line. */
  const MERGE_SEPARATOR := "\n\n"

  /** The stripped contents of `paths`, in order; None when one of them
      cannot be read. */
  function ReadAll(files: map<string, string>, paths: seq<string>): (r: Option<seq<string>>)
    ensures r.Some? <==> forall p | p in paths :: p in files
    ensures r.Some? ==> |r.value| == |paths|
    ensures r.Some? ==> forall i | 0 <= i < |paths| :: r.value[i] == Strip(files[paths[i]])
    decreases |paths|
  {
    if paths == [] then Some([])
    else
      var front := paths[..|paths| - 1];
      var last := paths[|paths| - 1];
      assert paths == front + [last];
      match ReadAll(files, front)
      case None => None
      case Some(contents) =>
        if last in files then Some(contents + [Strip(files[last])]) else None
  }

  /** What merge_files returns: the stripped contents joined with a blank
      line, or None when a file cannot be read. */
  function Merged(files: map<string, string>, paths: seq<string>): (r: Option<string>)
    ensures r.None? <==> exists p :: p in paths && p !in files
  {
    match ReadAll(files, paths)
    case None => None
    case Some(contents) => Some(JoinWith(contents, MERGE_SEPARATOR))
  }

  /** Merging no files gives the empty text; merging one file gives its
      stripped content. */
  lemma MergedShort(files: map<string, string>, p: string)
    ensures Merged(files, []) == Some("")
    ensures p in files ==> Merged(files, [p]) == Some(Strip(files[p]))
  {
    if p in files {
      var r := ReadAll(files, [p]).value;
      assert |r| == 1 && r[0] == Strip(files[p]);
    }
  }

  /** Merging one more file appends a blank line and that file's stripped
      content to the merge of the others. */
  lemma MergedAppend(files: map<string, string>, paths: seq<string>, p: string)
    requires |paths| >= 1
    requires Merged(files, paths).Some? && p in files
    ensures Merged(files, paths + [p]) == Some(Merged(files, paths).value + MERGE_SEPARATOR + Strip(files[p]))
  {
    var cs := ReadAll(files, paths).value;
    var ds := ReadAll(files, paths + [p]).value;
    assert ds == cs + [Strip(files[p])] by {
      assert |ds| == |cs| + 1;
      forall i | 0 <= i < |ds|
        ensures ds[i] == (cs + [Strip(files[p])])[i]
      {
        if i < |paths| {
          assert (paths + [p])[i] == paths[i];
        }
      }
    }
    JoinWithAppend(cs, Strip(files[p]), MERGE_SEPARATOR);
  }

  /** Two files holding ` a ` and `b` followed by a newline merge into `a`,
      a blank line, and `b`. */
  lemma MergedExample(files: map<string, string>, x: string, y: string)
    requires x != y && files == map[x := " a ", y := "b\n"]
    ensures Merged(files, [x, y]) == Some("a\n\nb")
  {
    var a, b := files[x], files[y];
    assert a[1..2] == "a";
    StripUnique(a, "a", 1);
    assert b[0..1] == "b";
    StripUnique(b, "b", 0);
    MergedShort(files, x);
    MergedAppend(files, [x], y);
    assert [x] + [y] == [x, y];
    assert "a" + MERGE_SEPARATOR + "b" == "a\n\nb";
  }

  // ---------------------------------------------------------------------------
  // The file system and the operations that read and change it
  // ---------------------------------------------------------------------------

  class FileSystem {
    /** The regular files and their text. */
    var files: map<string, string>
    /** The existing directories. */
    var dirs: set<string>
    /** The paths that `open(path, "w")` refuses (no permission and the
        like). */
    var readOnly: set<string>

    /** No path is both a file and a directory. */
    predicate Valid()
      reads this
    {
      files.Keys !! dirs
    }

    constructor(files0: map<string, string>, dirs0: set<string>, readOnly0: set<string>)
      requires files0.Keys !! dirs0
      ensures Valid()
      ensures files == files0 && dirs == dirs0 && readOnly == readOnly0
    {
      files := files0;
      dirs := dirs0;
      readOnly := readOnly0;
    }

    /** `os.path.exists`: a file or a directory. */
    predicate Exists(path: string)
      reads this
    {
      path in files || path in dirs
    }

    /** `open(path, "w")` succeeds unless the path is a directory or refused. */
    predicate CanWrite(path: string)
      reads this
    {
      path !in dirs && path !in readOnly
    }

    /** `read_file`: the text of the file, or None when it does not exist or
        is a directory. Nothing changes. */
    method ReadFile(path: string) returns (r: Option<string>)
      ensures r.Some? <==> path in files
      ensures r.Some? ==> r.value == files[path]
    {
      if path in files {
        return Some(files[path]);
      }
      return None;
    }

    /** `write_file`: replaces (or creates) the file, and fails without a
        change when the path cannot be opened for writing. Reading the path
        afterwards gives the written text; every other path reads as before. */
    method WriteFile(path: string, content: string) returns (ok: bool)
      requires Valid()
      modifies this
      ensures Valid()
      ensures ok == old(CanWrite(path))
      ensures files == if ok then old(files)[path := content] else old(files)
      ensures dirs == old(dirs) && readOnly == old(readOnly)
      ensures ok ==> Read(files, path) == Some(content)
      ensures forall q :: q != path ==> Read(files, q) == Read(old(files), q)
    {
      if path in dirs || path in readOnly {
        return false;
      }
      files := files[path := content];
      return true;
    }

    /** `ensure_directory` (`os.makedirs(directory, exist_ok=True)`): the
        directory exists afterwards; it fails only when a file is in the way.
        Calling it twice is the same as calling it once. */
    method EnsureDirectory(directory: string) returns (ok: bool)
      requires Valid()
      modifies this
      ensures Valid()
      ensures ok == (directory !in old(files))
      ensures dirs == if ok then old(dirs) + {directory} else old(dirs)
      ensures files == old(files) && readOnly == old(readOnly)
      ensures ok && old(directory in dirs) ==> dirs == old(dirs)
    {
      if directory in files {
        return false;
      }
      dirs := dirs + {directory};
      return true;
    }

    /** `merge_files`: reads the files in order, stops with None at the first
        one that cannot be read, and otherwise joins their stripped contents
        with a blank line. The empty list gives the empty text. */
    method MergeFiles(paths: seq<string>) returns (r: Option<string>)
      ensures r == Merged(files, paths)
    {
      var content: seq<string> := [];
      var i := 0;
      while i < |paths|
        invariant 0 <= i <= |paths|
        invariant ReadAll(files, paths[..i]) == Some(content)
      {
        var fileContent := ReadFile(paths[i]);
        if fileContent.None? {
          assert paths[i] in paths;
          return None;
        }
        assert paths[..i + 1][..i] == paths[..i];
        content := content + [Strip(fileContent.value)];
        i := i + 1;
      }
      assert paths[..i] == paths;
      return Some(JoinWith(content, MERGE_SEPARATOR));
    }
  }
}

=== FILE: file_selector.dfy ===
/**
 * Choosing the rules files to merge (class FileSelector). Each category's
 * files are what its glob pattern matched, sorted; the user picks at most
 * one cline, general, system and project file and any number of language
 * files, answering prompts from the `Console`.
 */
module FileSelector {
  import opened Options
  import opened Text
  import opened FileManager
  import opened InputHandler

  /** What glob matched for each of the five configured patterns. */
  datatype Matches = Matches(
    general: seq<string>, system: seq<string>, project: seq<string>,
    languages: seq<string>, cline: seq<string>)

  /** The four categories with a single-file prompt. */
  datatype Category = ClineFiles | GeneralFiles | SystemFiles | ProjectFiles

  function Matched(m: Matches, category: Category): seq<string>
  {
    match category
    case ClineFiles => m.cline
    case GeneralFiles => m.general
    case SystemFiles => m.system
    case ProjectFiles => m.project
  }

  /** No file occurs twice. */
  predicate NoDuplicates(xs: seq<string>)
  {
    forall i, j :: 0 <= i < j < |xs| ==> xs[i] != xs[j]
  }

  // ---------------------------------------------------------------------------
  // get_files_by_category and display_files_by_category
  // ---------------------------------------------------------------------------

  /** `get_files_by_category`: five sorted listings, in the order general,
      system, project, language, cline (five, although the annotation says
      four). */
  function GetFilesByCategory(m: Matches)
    : (r: (seq<string>, seq<string>, seq<string>, seq<string>, seq<string>))
    ensures Sorted(r.0) && multiset(r.0) == multiset(m.general)
    ensures Sorted(r.1) && multiset(r.1) == multiset(m.system)
    ensures Sorted(r.2) && multiset(r.2) == multiset(m.project)
    ensures Sorted(r.3) && multiset(r.3) == multiset(m.languages)
    ensures Sorted(r.4) && multiset(r.4) == multiset(m.cline)
  {
    ListFilesSpec(m.general, []);
    ListFilesSpec(m.system, []);
    ListFilesSpec(m.project, []);
    ListFilesSpec(m.languages, []);
    ListFilesSpec(m.cline, []);
    (ListFiles(m.general), ListFiles(m.system), ListFiles(m.project), ListFiles(m.languages), ListFiles(m.cline))
  }

  /** Appending a listing numbered from `|shown| + 1` to a listing numbered
      from 1 gives a listing numbered from 1. */
  lemma NumberedAppend(shown: seq<(int, string)>, done: seq<string>, more: seq<(int, string)>, files: seq<string>)
    requires |shown| == |done| && forall i :: 0 <= i < |done| ==> shown[i] == (i + 1, done[i])
    requires |more| == |files| && forall i :: 0 <= i < |files| ==> more[i] == (|shown| + 1 + i, files[i])
    ensures |shown + more| == |done + files|
    ensures forall i :: 0 <= i < |done + files| ==> (shown + more)[i] == (i + 1, (done + files)[i])
  {
  }

  /** `display_files_by_category`: the non-empty categories are listed in
      the order cline, general, system, project, language, numbered
      consecutively from 1. */
  method DisplayFilesByCategory(
    generalFiles: seq<string>, systemFiles: seq<string>, projectFiles: seq<string>,
    languageFiles: seq<string>, clineFiles: seq<string>)
    returns (shown: seq<(int, string)>)
    ensures var all := clineFiles + generalFiles + systemFiles + projectFiles + languageFiles;
      |shown| == |all| && forall i :: 0 <= i < |all| ==> shown[i] == (i + 1, all[i])
  {
    var currentNumber := 1;
    shown := [];
    ghost var done: seq<string> := [];
    var more: seq<(int, string)>;
    if |clineFiles| > 0 {
      currentNumber, more := DisplayFilesWithNumbers(clineFiles, currentNumber);
      NumberedAppend(shown, done, more, clineFiles);
      shown, done := shown + more, done + clineFiles;
    }
    if |generalFiles| > 0 {
      currentNumber, more := DisplayFilesWithNumbers(generalFiles, currentNumber);
      NumberedAppend(shown, done, more, generalFiles);
      shown, done := shown + more, done + generalFiles;
    }
    assert done == clineFiles + generalFiles;
    if |systemFiles| > 0 {
      currentNumber, more := DisplayFilesWithNumbers(systemFiles, currentNumber);
      NumberedAppend(shown, done, more, systemFiles);
      shown, done := shown + more, done + systemFiles;
    }
    assert done == clineFiles + generalFiles + systemFiles;
    if |projectFiles| > 0 {
      currentNumber, more := DisplayFilesWithNumbers(projectFiles, currentNumber);
      NumberedAppend(shown, done, more, projectFiles);
      shown, done := shown + more, done + projectFiles;
    }
    assert done == clineFiles + generalFiles + systemFiles + projectFiles;
    if |languageFiles| > 0 {
      currentNumber, more := DisplayFilesWithNumbers(languageFiles, currentNumber);
      NumberedAppend(shown, done, more, languageFiles);
      shown, done := shown + more, done + languageFiles;
    }
    assert done == clineFiles + generalFiles + systemFiles + projectFiles + languageFiles;
  }

  // ---------------------------------------------------------------------------
  // The single-file selects
  // ---------------------------------------------------------------------------

  /** The answer of a single-file select on the listing `files` and the
      lines it leaves unread: with no files there is no prompt and nothing is
      read. */
  function SingleSelection(files: seq<string>, lines: seq<string>): (r: (Answer<Option<string>>, seq<string>))
    ensures |r.1| <= |lines|
    ensures files == [] ==> r == (Answered(None), lines)
  {
    if files == [] then (Answered(None), lines) else Selection(files, lines, true)
  }

  /** `select_cline_file`, `select_general_file`, `select_system_file` and
      `select_project_file`: with no matching file the answer is None and no
      input is read; otherwise the sorted files are listed from 1 and
      get_valid_selection chooses one of them or None. */
  method SelectFile(console: Console, m: Matches, category: Category) returns (r: Answer<Option<string>>)
    modifies console
    ensures (r, console.input) == SingleSelection(ListFiles(Matched(m, category)), old(console.input))
  {
    var files := ListFiles(Matched(m, category));
    if |files| == 0 {
      return Answered(None);
    }
    var _, _ := DisplayFilesWithNumbers(files, 1);
    r := GetValidSelection(console, files, true);
  }

  // ---------------------------------------------------------------------------
  // select_language_files
  // ---------------------------------------------------------------------------

  /** `[f for f in files if f not in selected]` */
  function Remaining(files: seq<string>, selected: seq<string>): (r: seq<string>)
    ensures |r| <= |files|
  {
    if files == [] then []
    else (if files[0] in selected then [] else [files[0]]) + Remaining(files[1..], selected)
  }

  /** The remaining files are the listed files not selected yet. */
  lemma {:induction false} RemainingMembers(files: seq<string>, selected: seq<string>, f: string)
    ensures f in Remaining(files, selected) <==> f in files && f !in selected
  {
    if files != [] {
      RemainingMembers(files[1..], selected, f);
      assert files == [files[0]] + files[1..];
    }
  }

  /** Selecting one more file that was still remaining leaves fewer files
      remaining. */
  lemma {:induction false} RemainingShrinks(files: seq<string>, selected: seq<string>, f: string)
    ensures |Remaining(files, selected + [f])| + (if f in files && f !in selected then 1 else 0)
         <= |Remaining(files, selected)|
  {
    if files != [] {
      RemainingShrinks(files[1..], selected, f);
      assert f in files && f != files[0] ==> f in files[1..] by {
        assert files == [files[0]] + files[1..];
      }
    }
  }

  /** The files select_language_files returns on the input lines `lines`,
      having selected `selected` so far, and the lines it leaves unread. */
  function LanguageSelection(files: seq<string>, selected: seq<string>, lines: seq<string>)
    : (r: (Answer<seq<string>>, seq<string>))
    ensures |r.1| <= |lines|
    decreases |lines|
  {
    var remaining := Remaining(files, selected);
    if remaining == [] then (Answered(selected), lines)
    else
      var choice := Selection(remaining, lines, true);
      if choice.0.EndOfInput? then (EndOfInput, choice.1)
      else if choice.0.value.None? then (Answered(selected), choice.1)
      else LanguageSelection(files, selected + [choice.0.value.value], choice.1)
  }

  /** A selection picks one of the listed files, and a skipped selection
      ends on a blank line, the last line read. */
  lemma SelectionOutcome(files: seq<string>, lines: seq<string>)
    ensures var r := Selection(files, lines, true); var n := |lines| - |r.1|;
      && r.1 == lines[n..]
      && (r.0.Answered? && r.0.value.Some? ==> r.0.value.value in files)
      && (r.0.Answered? && r.0.value.None? ==> Strip(lines[n - 1]) == [])
  {
    SelectionUnread(files, lines, true);
    SelectionDecides(files, lines, true);
  }

  /** A single-file select answers with one of its listed files or None. */
  lemma SingleSelectionChosen(files: seq<string>, lines: seq<string>)
    ensures var a := SingleSelection(files, lines).0;
      a.Answered? ==> ChosenFrom(a.value, files)
  {
    if files != [] {
      SelectionOutcome(files, lines);
    }
  }

  /** Adding a file that was still remaining keeps the selection free of
      duplicates and within the listed files, and leaves fewer remaining. */
  lemma SelectRemaining(files: seq<string>, selected: seq<string>, f: string)
    requires NoDuplicates(selected)
    requires forall i :: 0 <= i < |selected| ==> selected[i] in files
    requires |selected| + |Remaining(files, selected)| <= |files|
    requires f in Remaining(files, selected)
    ensures NoDuplicates(selected + [f])
    ensures forall i :: 0 <= i < |selected + [f]| ==> (selected + [f])[i] in files
    ensures |selected + [f]| + |Remaining(files, selected + [f])| <= |files|
  {
    RemainingMembers(files, selected, f);
    RemainingShrinks(files, selected, f);
  }

  /** Whatever the lines, the language loop only appends to the selection
      it starts from. */
  lemma {:induction false} LanguageSelectionExtends(files: seq<string>, selected: seq<string>, lines: seq<string>)
    ensures var a := LanguageSelection(files, selected, lines).0;
      a.Answered? ==> |selected| <= |a.value| && a.value[..|selected|] == selected
    decreases |lines|
  {
    var remaining := Remaining(files, selected);
    if remaining != [] {
      var choice := Selection(remaining, lines, true);
      if choice.0.Answered? && choice.0.value.Some? {
        var next := selected + [choice.0.value.value];
        LanguageSelectionExtends(files, next, choice.1);
        var a := LanguageSelection(files, next, choice.1).0;
        if a.Answered? {
          assert a.value[..|selected|] == a.value[..|next|][..|selected|];
        }
      }
    }
  }

  /** Each choice appends exactly the file it names: when the prompt over
      the remaining files picks `f`, the loop goes on from `selected + [f]`,
      and its answer holds `f` right after `selected`. So the result is in
      the order of the choices, not in listing order. */
  lemma LanguageSelectionAppendsChoice(files: seq<string>, selected: seq<string>, lines: seq<string>, f: string)
    requires Remaining(files, selected) != []
    requires Selection(Remaining(files, selected), lines, true).0 == Answered(Some(f))
    ensures LanguageSelection(files, selected, lines)
         == LanguageSelection(files, selected + [f], Selection(Remaining(files, selected), lines, true).1)
    ensures var a := LanguageSelection(files, selected, lines).0;
      a.Answered? ==> |selected| < |a.value| && a.value[|selected|] == f
  {
    var rest := Selection(Remaining(files, selected), lines, true).1;
    LanguageSelectionExtends(files, selected + [f], rest);
    var a := LanguageSelection(files, selected + [f], rest).0;
    if a.Answered? {
      assert a.value[..|selected| + 1][|selected|] == (selected + [f])[|selected|];
    }
  }

  /** The selection only grows at its end (in the order of the choices, by
      LanguageSelectionAppendsChoice); it never holds a file twice, holds only listed files and so no more
      of them than are listed. */
  lemma {:induction false} LanguageSelectionSpec(files: seq<string>, selected: seq<string>, lines: seq<string>)
    requires NoDuplicates(selected)
    requires forall i :: 0 <= i < |selected| ==> selected[i] in files
    requires |selected| + |Remaining(files, selected)| <= |files|
    ensures var a := LanguageSelection(files, selected, lines).0;
      a.Answered? ==>
        && |selected| <= |a.value| && a.value[..|selected|] == selected
        && NoDuplicates(a.value)
        && (forall i :: 0 <= i < |a.value| ==> a.value[i] in files)
        && |a.value| <= |files|
    decreases |lines|
  {
    var remaining := Remaining(files, selected);
    if remaining != [] {
      var choice := Selection(remaining, lines, true);
      SelectionOutcome(remaining, lines);
      if choice.0.Answered? && choice.0.value.Some? {
        var f := choice.0.value.value;
        var next := selected + [f];
        SelectRemaining(files, selected, f);
        LanguageSelectionSpec(files, next, choice.1);
        var a := LanguageSelection(files, next, choice.1).0;
        if a.Answered? {
          assert a.value[..|selected|] == a.value[..|next|][..|selected|];
        }
      }
    }
  }

  /** The lines select_language_files leaves unread are what follows the
      lines it reads. */
  lemma {:induction false} LanguageSelectionUnread(files: seq<string>, selected: seq<string>, lines: seq<string>)
    ensures var r := LanguageSelection(files, selected, lines);
      r.1 == lines[|lines| - |r.1|..]
    decreases |lines|
  {
    var remaining := Remaining(files, selected);
    if remaining != [] {
      var choice := Selection(remaining, lines, true);
      SelectionUnread(remaining, lines, true);
      if choice.0.Answered? && choice.0.value.Some? {
        LanguageSelectionUnread(files, selected + [choice.0.value.value], choice.1);
      }
    }
  }

  /** select_language_files ends at the end of input only once every line
      has been read. */
  lemma {:induction false} LanguageSelectionEndOfInput(files: seq<string>, selected: seq<string>, lines: seq<string>)
    ensures var r := LanguageSelection(files, selected, lines); r.0.EndOfInput? ==> r.1 == []
    decreases |lines|
  {
    var remaining := Remaining(files, selected);
    if remaining != [] {
      var choice := Selection(remaining, lines, true);
      if choice.0.Answered? && choice.0.value.Some? {
        LanguageSelectionEndOfInput(files, selected + [choice.0.value.value], choice.1);
      }
    }
  }

  /** select_language_files stops either when every file is selected or on
      a blank line, the last line read. */
  lemma {:induction false} LanguageSelectionStops(files: seq<string>, selected: seq<string>, lines: seq<string>)
    ensures var r := LanguageSelection(files, selected, lines); var n := |lines| - |r.1|;
      r.0.Answered? ==> Remaining(files, r.0.value) == [] || (1 <= n && Strip(lines[n - 1]) == [])
    decreases |lines|
  {
    var remaining := Remaining(files, selected);
    if remaining != [] {
      var choice := Selection(remaining, lines, true);
      SelectionOutcome(remaining, lines);
      if choice.0.Answered? && choice.0.value.None? {
        assert LanguageSelection(files, selected, lines) == (Answered(selected), choice.1);
      } else if choice.0.Answered? {
        var next := selected + [choice.0.value.value];
        var r := LanguageSelection(files, next, choice.1);
        assert LanguageSelection(files, selected, lines) == r;
        LanguageSelectionStops(files, next, choice.1);
        LanguageSelectionUnread(files, next, choice.1);
        var read := |lines| - |choice.1|;
        var k := |choice.1| - |r.1|;
        if r.0.Answered? && k >= 1 {
          assert choice.1[k - 1] == lines[read + k - 1];
        }
      }
    }
  }

  /** `select_language_files`: with no language file it returns the empty
      list without reading input; otherwise it lists the files not chosen
      yet and adds the chosen one, until none remain or a blank line. */
  method SelectLanguageFiles(console: Console, m: Matches) returns (r: Answer<seq<string>>)
    modifies console
    ensures (r, console.input) == LanguageSelection(ListFiles(m.languages), [], old(console.input))
  {
    var languageFiles := ListFiles(m.languages);
    if |languageFiles| == 0 {
      return Answered([]);
    }
    var selected: seq<string> := [];
    while true
      invariant LanguageSelection(languageFiles, selected, console.input)
             == LanguageSelection(languageFiles, [], old(console.input))
      decreases |console.input|
    {
      var remainingFiles := Remaining(languageFiles, selected);
      if |remainingFiles| == 0 {
        return Answered(selected);
      }
      var _, _ := DisplaySelectedFiles(selected, remainingFiles);
      var choice := GetValidSelection(console, remainingFiles, true);
      match choice
      case EndOfInput =>
        return EndOfInput;
      case Answered(None) =>
        return Answered(selected);
      case Answered(Some(f)) =>
        selected := selected + [f];
    }
  }

  // ---------------------------------------------------------------------------
  // select_all_files
  // ---------------------------------------------------------------------------

  /** Python's truth test on an optional path: None and "" are left out. */
  function Kept(choice: Option<string>): (r: seq<string>)
    ensures |r| <= 1
    ensures r == [] <==> choice.None? || choice.value == ""
    ensures r != [] ==> r[0] == choice.value
  {
    if choice.Some? && choice.value != "" then [choice.value] else []
  }

  /** Appending a kept choice is appending its path when it is truthy. */
  lemma KeptAppend(acc: seq<string>, choice: Option<string>)
    ensures acc + Kept(choice) == if choice.Some? && choice.value != "" then acc + [choice.value] else acc
  {
  }

  /** A chosen single file, if any, is one of the listed files. */
  predicate ChosenFrom(choice: Option<string>, files: seq<string>)
  {
    choice.None? || choice.value in files
  }

  /** The files select_all_files returns on the input lines `lines`, and
      the lines it leaves unread: the cline, general, system and project
      selects and then the language select, each on the lines the previous
      ones left, until the first end of input. */
  function AllSelection(m: Matches, lines: seq<string>): (r: (Answer<seq<string>>, seq<string>))
    ensures |r.1| <= |lines|
    ensures r.0.EndOfInput? ==> r.1 == []
  {
    var cline := SingleSelection(ListFiles(m.cline), lines);
    if cline.0.EndOfInput? then (EndOfInput, cline.1)
    else
      var general := SingleSelection(ListFiles(m.general), cline.1);
      if general.0.EndOfInput? then (EndOfInput, general.1)
      else
        var system := SingleSelection(ListFiles(m.system), general.1);
        if system.0.EndOfInput? then (EndOfInput, system.1)
        else
          var project := SingleSelection(ListFiles(m.project), system.1);
          if project.0.EndOfInput? then (EndOfInput, project.1)
          else
            var languages := LanguageSelection(ListFiles(m.languages), [], project.1);
            LanguageSelectionEndOfInput(ListFiles(m.languages), [], project.1);
            if languages.0.EndOfInput? then (EndOfInput, languages.1)
            else
              (Answered(Kept(cline.0.value) + Kept(general.0.value) + Kept(system.0.value)
                        + Kept(project.0.value) + languages.0.value), languages.1)
  }

  /** The result of select_all_files is the cline, general, system and
      project choices that were made, in that order and each from its own
      listing, followed by distinct language files; the out-parameters are
      those parts. */
  lemma AllSelectionOrder(m: Matches, lines: seq<string>)
    returns (cline: Option<string>, general: Option<string>, system: Option<string>,
             project: Option<string>, languages: seq<string>)
    requires AllSelection(m, lines).0.Answered?
    ensures AllSelection(m, lines).0.value
      == Kept(cline) + Kept(general) + Kept(system) + Kept(project) + languages
    ensures ChosenFrom(cline, ListFiles(m.cline)) && ChosenFrom(general, ListFiles(m.general))
    ensures ChosenFrom(system, ListFiles(m.system)) && ChosenFrom(project, ListFiles(m.project))
    ensures NoDuplicates(languages)
    ensures forall i :: 0 <= i < |languages| ==> languages[i] in ListFiles(m.languages)
  {
    var c := SingleSelection(ListFiles(m.cline), lines);
    var g := SingleSelection(ListFiles(m.general), c.1);
    var s := SingleSelection(ListFiles(m.system), g.1);
    var p := SingleSelection(ListFiles(m.project), s.1);
    SingleSelectionChosen(ListFiles(m.cline), lines);
    SingleSelectionChosen(ListFiles(m.general), c.1);
    SingleSelectionChosen(ListFiles(m.system), g.1);
    SingleSelectionChosen(ListFiles(m.project), s.1);
    LanguageSelectionSpec(ListFiles(m.languages), [], p.1);
    cline, general, system, project := c.0.value, g.0.value, s.0.value, p.0.value;
    languages := LanguageSelection(ListFiles(m.languages), [], p.1).0.value;
  }

  /** AllSelection when every select answers, in terms of its steps. */
  lemma AllSelectionAnswered(m: Matches, lines: seq<string>,
                             c: (Answer<Option<string>>, seq<string>), g: (Answer<Option<string>>, seq<string>),
                             s: (Answer<Option<string>>, seq<string>), p: (Answer<Option<string>>, seq<string>),
                             l: (Answer<seq<string>>, seq<string>))
    requires c == SingleSelection(ListFiles(m.cline), lines) && c.0.Answered?
    requires g == SingleSelection(ListFiles(m.general), c.1) && g.0.Answered?
    requires s == SingleSelection(ListFiles(m.system), g.1) && s.0.Answered?
    requires p == SingleSelection(ListFiles(m.project), s.1) && p.0.Answered?
    requires l == LanguageSelection(ListFiles(m.languages), [], p.1) && l.0.Answered?
    ensures AllSelection(m, lines)
         == (Answered(Kept(c.0.value) + Kept(g.0.value) + Kept(s.0.value) + Kept(p.0.value) + l.0.value), l.1)
  {
  }

  /** The collecting part of select_all_files: each single choice that is
      truthy is appended in turn, then the language files are appended. */
  method CollectSelected(cline: Option<string>, general: Option<string>, system: Option<string>,
                         project: Option<string>, languages: seq<string>)
    returns (allFiles: seq<string>)
    ensures allFiles == Kept(cline) + Kept(general) + Kept(system) + Kept(project) + languages
  {
    allFiles := [];
    if cline.Some? && cline.value != "" {
      allFiles := allFiles + [cline.value];
    }
    assert allFiles == Kept(cline);
    ghost var kept := allFiles;
    if general.Some? && general.value != "" {
      allFiles := allFiles + [general.value];
    }
    KeptAppend(kept, general);
    kept := allFiles;
    if system.Some? && system.value != "" {
      allFiles := allFiles + [system.value];
    }
    KeptAppend(kept, system);
    kept := allFiles;
    if project.Some? && project.value != "" {
      allFiles := allFiles + [project.value];
    }
    KeptAppend(kept, project);
    allFiles := allFiles + languages;
  }

  /** `select_all_files`: asks for the cline, general, system and project
      file and the language files, in that order, and collects the answers. */
  method SelectAllFiles(console: Console, m: Matches) returns (r: Answer<seq<string>>)
    modifies console
    ensures (r, console.input) == AllSelection(m, old(console.input))
  {
    ghost var c := SingleSelection(ListFiles(m.cline), console.input);
    var clineFile := SelectFile(console, m, ClineFiles);
    assert (clineFile, console.input) == c;
    if clineFile.EndOfInput? {
      return EndOfInput;
    }
    ghost var g := SingleSelection(ListFiles(m.general), console.input);
    var generalFile := SelectFile(console, m, GeneralFiles);
    assert (generalFile, console.input) == g;
    if generalFile.EndOfInput? {
      return EndOfInput;
    }
    ghost var s := SingleSelection(ListFiles(m.system), console.input);
    var systemFile := SelectFile(console, m, SystemFiles);
    assert (systemFile, console.input) == s;
    if systemFile.EndOfInput? {
      return EndOfInput;
    }
    ghost var p := SingleSelection(ListFiles(m.project), console.input);
    var projectFile := SelectFile(console, m, ProjectFiles);
    assert (projectFile, console.input) == p;
    if projectFile.EndOfInput? {
      return EndOfInput;
    }
    ghost var l := LanguageSelection(ListFiles(m.languages), [], console.input);
    var languageFiles := SelectLanguageFiles(console, m);
    assert (languageFiles, console.input) == l;
    if languageFiles.EndOfInput? {
      return EndOfInput;
    }
    var allFiles := CollectSelected(clineFile.value, generalFile.value, systemFile.value, projectFile.value,
                                    languageFiles.value);
    AllSelectionAnswered(m, old(console.input), c, g, s, p, l);
    assert (Answered(allFiles), console.input) == AllSelection(m, old(console.input));
    return Answered(allFiles);
  }
}

=== FILE: input_handler.dfy ===
/**
 * The interactive prompts (class InputHandler). Standard input is a
 * `Console` whose remaining lines the prompts consume one at a time; when
 * no line is left, Python's `input()` raises EOFError, which the prompts do
 * not catch, and the model reports `EndOfInput`. Printed text is not
 * modelled except for the numbers given to listed files.
 */
module InputHandler {
  import opened Options
  import opened Text

  /** The outcome of a prompt: an answer, or the end of standard input. */
  datatype Answer<T> = Answered(value: T) | EndOfInput

  class Console {
    /** The lines of standard input not read yet. */
    var input: seq<string>

    constructor(lines: seq<string>)
      ensures input == lines
    {
      input := lines;
    }

    /** `input(prompt)`: the next line, or EndOfInput when there is none. */
    method ReadLine() returns (line: Answer<string>)
      modifies this
      ensures old(input) == [] ==> line.EndOfInput? && input == []
      ensures old(input) != [] ==> line == Answered(old(input)[0]) && input == old(input)[1..]
    {
      if input == [] {
        return EndOfInput;
      }
      line := Answered(input[0]);
      input := input[1..];
    }
  }

  // ---------------------------------------------------------------------------
  // int(): an optional sign and ASCII digits
  // ---------------------------------------------------------------------------

  predicate IsDigit(c: char)
  {
    '0' <= c <= '9'
  }

  predicate AllDigits(s: string)
  {
    s == [] || (IsDigit(s[|s| - 1]) && AllDigits(s[..|s| - 1]))
  }

  /** A non-empty string of digits begins with a digit, so never with a sign. */
  lemma {:induction false} DigitsStartWithDigit(s: string)
    requires s != []
    ensures AllDigits(s) ==> IsDigit(s[0])
    decreases |s|
  {
    if |s| > 1 && AllDigits(s) {
      DigitsStartWithDigit(s[..|s| - 1]);
    }
  }

  /** The value of a string of decimal digits. */
  function DigitsValue(s: string): nat
    requires AllDigits(s)
  {
    if s == [] then 0
    else DigitsValue(s[..|s| - 1]) * 10 + (s[|s| - 1] as int - '0' as int)
  }

  /** `int(s)` on a stripped token: an optional `+` or `-` followed by at least
      one ASCII digit; anything else raises ValueError, modelled as None. */
  function ParseInt(s: string): (r: Option<int>)
    ensures r.Some? <==>
      |s| > 0 && (AllDigits(s) || ((s[0] == '+' || s[0] == '-') && |s| > 1 && AllDigits(s[1..])))
    ensures r.Some? && AllDigits(s) ==> r.value == DigitsValue(s)
    ensures r.Some? && |s| > 1 && s[0] == '+' && AllDigits(s[1..]) ==> r.value == DigitsValue(s[1..])
    ensures r.Some? && |s| > 1 && s[0] == '-' && AllDigits(s[1..]) ==> r.value == -(DigitsValue(s[1..]) as int)
    ensures r.Some? && s[0] != '-' ==> r.value >= 0
  {
    if s == [] then None
    else
      DigitsStartWithDigit(s);
      if s[0] == '+' || s[0] == '-' then
        var digits := s[1..];
        if digits != [] && AllDigits(digits) then
          Some(if s[0] == '-' then -(DigitsValue(digits) as int) else DigitsValue(digits) as int)
        else None
      else if AllDigits(s) then Some(DigitsValue(s))
      else None
  }

  /** The decimal digits of `n`, without sign or leading zeros: what a user
      types to choose the entry numbered `n`. */
  function DecimalString(n: nat): (r: string)
    ensures r != [] && AllDigits(r) && IsDigit(r[0])
  {
    var d := ['0' + (n % 10) as char];
    if n < 10 then d
    else
      var r := DecimalString(n / 10) + d;
      assert r[..|r| - 1] == DecimalString(n / 10);
      r
  }

  lemma {:induction false} DigitsOfDecimal(n: nat)
    ensures DigitsValue(DecimalString(n)) == n
  {
    var r := DecimalString(n);
    if n >= 10 {
      DigitsOfDecimal(n / 10);
      assert r[..|r| - 1] == DecimalString(n / 10);
    }
  }

  /** Typing the decimal digits of a number, with or without a sign, gives
      that number back. */
  lemma ParseDecimal(n: nat)
    ensures ParseInt(DecimalString(n)) == Some(n)
    ensures ParseInt("+" + DecimalString(n)) == Some(n)
    ensures ParseInt("-" + DecimalString(n)) == Some(-(n as int))
  {
    DigitsOfDecimal(n);
    assert ("+" + DecimalString(n))[1..] == DecimalString(n);
    assert ("-" + DecimalString(n))[1..] == DecimalString(n);
  }

  // ---------------------------------------------------------------------------
  // get_valid_selection
  // ---------------------------------------------------------------------------

  /** What get_valid_selection does with one stripped line. */
  datatype Verdict = Pick(index: nat) | Skip | Retry

  /** A blank line skips only when that is allowed; a number `n` between 1 and
      `count` picks the entry at index `n - 1`; anything else (including a
      blank line when skipping is not allowed) asks again. */
  function Decide(choice: string, count: nat, allowEmpty: bool): (v: Verdict)
    ensures v == Skip <==> allowEmpty && choice == []
    ensures v.Pick? ==> v.index < count && ParseInt(choice) == Some(v.index + 1)
    ensures v == Retry <==>
      (!(allowEmpty && choice == []) && (ParseInt(choice).None? || !(1 <= ParseInt(choice).value <= count)))
  {
    if allowEmpty && choice == [] then Skip
    else
      match ParseInt(choice)
      case None => Retry
      case Some(n) => if 1 <= n <= count then Pick(n - 1) else Retry
  }

  /** Typing the number of an entry picks it, whether or not skipping is
      allowed. */
  lemma DecideNumber(k: nat, count: nat, allowEmpty: bool)
    requires 1 <= k <= count
    ensures Decide(DecimalString(k), count, allowEmpty) == Pick(k - 1)
  {
    ParseDecimal(k);
  }

  /** The answer get_valid_selection gives on the input lines `lines`, and
      the lines it leaves unread. */
  function Selection(files: seq<string>, lines: seq<string>, allowEmpty: bool): (r: (Answer<Option<string>>, seq<string>))
    ensures |r.1| <= |lines|
    ensures r.0.EndOfInput? ==> r.1 == []
    ensures r.0.Answered? ==> |r.1| < |lines|
    ensures r.0.Answered? && r.0.value.None? ==> allowEmpty
    decreases |lines|
  {
    if lines == [] then (EndOfInput, [])
    else
      match Decide(Strip(lines[0]), |files|, allowEmpty)
      case Pick(k) => (Answered(Some(files[k])), lines[1..])
      case Skip => (Answered(None), lines[1..])
      case Retry => Selection(files, lines[1..], allowEmpty)
  }

  /** The lines left unread are what follows the lines read. */
  lemma {:induction false} SelectionUnread(files: seq<string>, lines: seq<string>, allowEmpty: bool)
    ensures var r := Selection(files, lines, allowEmpty);
      r.1 == lines[|lines| - |r.1|..]
    decreases |lines|
  {
    if lines != [] && Decide(Strip(lines[0]), |files|, allowEmpty) == Retry {
      SelectionUnread(files, lines[1..], allowEmpty);
    }
  }

  /** Every line read before the last is rejected and asked again. */
  lemma {:induction false} SelectionRejects(files: seq<string>, lines: seq<string>, allowEmpty: bool, j: nat)
    requires var r := Selection(files, lines, allowEmpty); var n := |lines| - |r.1|;
      j < n && (r.0.Answered? ==> j < n - 1)
    ensures Decide(Strip(lines[j]), |files|, allowEmpty) == Retry
    decreases j
  {
    if j > 0 {
      SelectionRejects(files, lines[1..], allowEmpty, j - 1);
      assert lines[1..][j - 1] == lines[j];
    }
  }

  /** The last line read decides the answer: a blank line gives None, a
      number `n` gives `files[n - 1]`. */
  lemma {:induction false} SelectionDecides(files: seq<string>, lines: seq<string>, allowEmpty: bool)
    ensures var r := Selection(files, lines, allowEmpty); var n := |lines| - |r.1|;
      r.0.Answered? ==>
        var v := Decide(Strip(lines[n - 1]), |files|, allowEmpty);
        if r.0.value.None? then v == Skip else v.Pick? && r.0.value.value == files[v.index]
    decreases |lines|
  {
    if lines != [] && Decide(Strip(lines[0]), |files|, allowEmpty) == Retry {
      SelectionDecides(files, lines[1..], allowEmpty);
      var r := Selection(files, lines[1..], allowEmpty);
      assert Selection(files, lines, allowEmpty) == r;
      var n := |lines| - |r.1|;
      if n >= 2 {
        assert lines[1..][n - 2] == lines[n - 1];
      }
    }
  }

  /** `get_valid_selection`: reads lines until one is a blank line (when
      allowed) or the number of a file, and returns None or that file. */
  method GetValidSelection(console: Console, files: seq<string>, allowEmpty: bool) returns (r: Answer<Option<string>>)
    modifies console
    ensures (r, console.input) == Selection(files, old(console.input), allowEmpty)
  {
    while true
      invariant Selection(files, console.input, allowEmpty) == Selection(files, old(console.input), allowEmpty)
      decreases |console.input|
    {
      var line := console.ReadLine();
      if line.EndOfInput? {
        return EndOfInput;
      }
      var choice := Strip(line.value);
      match Decide(choice, |files|, allowEmpty)
      case Pick(k) =>
        return Answered(Some(files[k]));
      case Skip =>
        return Answered(None);
      case Retry =>
    }
  }

  // ---------------------------------------------------------------------------
  // get_diff_tool_choice
  // ---------------------------------------------------------------------------

  /** The answer get_diff_tool_choice gives on `lines` (True for git diff,
      False for VS Code) and the lines it leaves unread. */
  function DiffToolChoice(lines: seq<string>): (r: (Answer<bool>, seq<string>))
    ensures |r.1| <= |lines|
    ensures r.0.EndOfInput? ==> r.1 == []
    ensures r.0.Answered? ==> |r.1| < |lines|
    decreases |lines|
  {
    if lines == [] then (EndOfInput, [])
    else
      var choice := Strip(lines[0]);
      if choice == "1" then (Answered(true), lines[1..])
      else if choice == "2" then (Answered(false), lines[1..])
      else DiffToolChoice(lines[1..])
  }

  /** The first line that strips to `1` or `2` decides: `1` is True and `2`
      is False; every line before it is rejected, and the lines after it are
      left unread. */
  lemma {:induction false} DiffToolChoiceSpec(lines: seq<string>)
    ensures var r := DiffToolChoice(lines); var n := |lines| - |r.1|;
      && r.1 == lines[n..]
      && (forall j :: 0 <= j < n && (r.0.Answered? ==> j < n - 1) ==>
            Strip(lines[j]) != "1" && Strip(lines[j]) != "2")
      && (r.0.Answered? ==> Strip(lines[n - 1]) == (if r.0.value then "1" else "2"))
    decreases |lines|
  {
    if lines != [] && Strip(lines[0]) != "1" && Strip(lines[0]) != "2" {
      DiffToolChoiceSpec(lines[1..]);
      var r := DiffToolChoice(lines);
      var n := |lines| - |r.1|;
      forall j | 1 <= j < n
        ensures lines[j] == lines[1..][j - 1]
      {
      }
    }
  }

  /** `get_diff_tool_choice` */
  method GetDiffToolChoice(console: Console) returns (r: Answer<bool>)
    modifies console
    ensures (r, console.input) == DiffToolChoice(old(console.input))
  {
    while true
      invariant DiffToolChoice(console.input) == DiffToolChoice(old(console.input))
      decreases |console.input|
    {
      var line := console.ReadLine();
      if line.EndOfInput? {
        return EndOfInput;
      }
      var choice := Strip(line.value);
      if choice == "1" {
        return Answered(true);
      } else if choice == "2" {
        return Answered(false);
      }
    }
  }

  // ---------------------------------------------------------------------------
  // display_files_with_numbers
  // ---------------------------------------------------------------------------

  /** `display_files_with_numbers`: the files are listed numbered from
      `startNum` on, in order, and the next free number is returned, which
      is `startNum` itself for an empty list. The listing is returned as the
      (number, file) pairs shown; the heading and base names are not modelled. */
  method DisplayFilesWithNumbers(files: seq<string>, startNum: int) returns (next: int, shown: seq<(int, string)>)
    ensures next == startNum + |files|
    ensures |shown| == |files|
    ensures forall i :: 0 <= i < |files| ==> shown[i] == (startNum + i, files[i])
  {
    shown := [];
    if |files| == 0 {
      return startNum, shown;
    }
    var i := 0;
    while i < |files|
      invariant 0 <= i <= |files|
      invariant |shown| == i
      invariant forall j :: 0 <= j < i ==> shown[j] == (startNum + j, files[j])
    {
      shown := shown + [(startNum + i, files[i])];
      i := i + 1;
    }
    next := startNum + |files|;
  }

  /** `display_selected_files`: the files selected so far are listed
      without numbers, then the remaining files numbered from 1 on. The
      listing is returned as the files and (number, file) pairs shown; the
      headings and base names are not modelled. */
  method DisplaySelectedFiles(selected: seq<string>, remaining: seq<string>)
    returns (listed: seq<string>, shown: seq<(int, string)>)
    ensures listed == selected
    ensures |shown| == |remaining|
    ensures forall i :: 0 <= i < |remaining| ==> shown[i] == (i + 1, remaining[i])
  {
    listed := [];
    for k := 0 to |selected|
      invariant listed == selected[..k]
    {
      listed := listed + [selected[k]];
    }
    shown := [];
    if |remaining| > 0 {
      for i := 0 to |remaining|
        invariant |shown| == i
        invariant forall j :: 0 <= j < i ==> shown[j] == (j + 1, remaining[j])
      {
        shown := shown + [(i + 1, remaining[i])];
      }
    }
  }

  /** Typing the number shown beside a file in a listing numbered from 1
      selects that file, on the first line read. */
  lemma NumberShownSelects(files: seq<string>, i: nat, allowEmpty: bool, rest: seq<string>)
    requires i < |files|
    ensures Selection(files, [DecimalString(i + 1)] + rest, allowEmpty) == (Answered(Some(files[i])), rest)
  {
    var line := DecimalString(i + 1);
    IsSpaceCodePoints(line[0]);
    IsSpaceCodePoints(line[|line| - 1]);
    StripOfStripped(line);
    DecideNumber(i + 1, |files|, allowEmpty);
    assert ([line] + rest)[1..] == rest;
  }
}

=== FILE: options.dfy ===
/** The Some/None datatype used in place of Python's `Optional[...]` / `None` returns. */
module Options {

  datatype Option<+T> = None | Some(value: T)

}

=== FILE: output_handler.dfy ===
/**
 * Building the combined rules file (class OutputHandler): the selected
 * files are merged and written to the output file inside the output
 * directory. The two configured paths are parameters of the model.
 */
module OutputHandler {
  import opened Options
  import opened FileManager

  /** OUTPUT_DIR and OUTPUT_FILE of the configuration; the output file lies
      inside the output directory, so the two paths differ. */
  datatype OutputConfig = OutputConfig(outputDir: string, outputFile: string)
  {
    predicate Valid()
    {
      outputDir != outputFile
    }
  }

  /** `ensure_output_directory`: creates the directory only when nothing
      exists at its path, and always reports success. A second call changes
      nothing. */
  method EnsureOutputDirectory(fs: FileSystem, config: OutputConfig) returns (ok: bool)
    requires fs.Valid()
    modifies fs
    ensures fs.Valid()
    ensures ok
    ensures fs.dirs == if old(fs.Exists(config.outputDir)) then old(fs.dirs) else old(fs.dirs) + {config.outputDir}
    ensures fs.files == old(fs.files) && fs.readOnly == old(fs.readOnly)
    ensures fs.Exists(config.outputDir)
  {
    if !fs.Exists(config.outputDir) {
      ok := fs.EnsureDirectory(config.outputDir);
      return;
    }
    return true;
  }

  /** `merge_files` of the output handler: an empty selection is refused
      with None; otherwise it is the file manager's merge. */
  method MergeFiles(fs: FileSystem, paths: seq<string>) returns (r: Option<string>)
    ensures paths == [] ==> r.None?
    ensures paths != [] ==> r == Merged(fs.files, paths)
  {
    if |paths| == 0 {
      return None;
    }
    r := fs.MergeFiles(paths);
  }

  /** `create_output_file`: ensures the output directory, then writes the
      output file; only the output file (and the directory) can change. */
  method CreateOutputFile(fs: FileSystem, config: OutputConfig, content: string) returns (ok: bool)
    requires fs.Valid() && config.Valid()
    modifies fs
    ensures fs.Valid()
    ensures ok == old(fs.CanWrite(config.outputFile))
    ensures fs.files == if ok then old(fs.files)[config.outputFile := content] else old(fs.files)
    ensures fs.dirs == if old(fs.Exists(config.outputDir)) then old(fs.dirs) else old(fs.dirs) + {config.outputDir}
    ensures fs.readOnly == old(fs.readOnly)
  {
    ok := EnsureOutputDirectory(fs, config);
    if !ok {
      return false;
    }
    ok := fs.WriteFile(config.outputFile, content);
  }

  /** `process_files`: an empty selection or a failed merge reports failure
      and changes nothing; otherwise the output file receives the merge of
      the selected files. No file other than the output file ever changes. */
  method ProcessFiles(fs: FileSystem, config: OutputConfig, paths: seq<string>) returns (ok: bool)
    requires fs.Valid() && config.Valid()
    modifies fs
    ensures fs.Valid()
    ensures ok <==> paths != [] && Merged(old(fs.files), paths).Some? && old(fs.CanWrite(config.outputFile))
    ensures ok ==> fs.files == old(fs.files)[config.outputFile := Merged(old(fs.files), paths).value]
    ensures !ok ==> fs.files == old(fs.files)
    ensures forall p :: p != config.outputFile ==> Read(fs.files, p) == Read(old(fs.files), p)
    ensures paths == [] || Merged(old(fs.files), paths).None? ==> fs.dirs == old(fs.dirs)
    ensures paths != [] && Merged(old(fs.files), paths).Some? ==>
      fs.dirs == if old(fs.Exists(config.outputDir)) then old(fs.dirs) else old(fs.dirs) + {config.outputDir}
    ensures fs.readOnly == old(fs.readOnly)
  {
    if |paths| == 0 {
      return false;
    }
    var mergedContent := MergeFiles(fs, paths);
    if mergedContent.None? {
      return false;
    }
    ok := CreateOutputFile(fs, config, mergedContent.value);
  }
}

=== FILE: text.dfy ===
/**
 * The pieces of Python's `str` behaviour that the rules tool relies on:
 * `strip()`, `find()`, `split(sep)`, `lower()`, `upper()` and `sep.join(parts)`.
 * Each is defined once here, with a contract that states what it computes.
 */
module Text {
  import opened Options

  // ---------------------------------------------------------------------------
  // Whitespace and strip()
  // ---------------------------------------------------------------------------

  /** The code points that Python's `str.isspace()` accepts, which are the ones
      `str.strip()` removes when called without arguments, as ten ranges:
      tab to carriage return; the separators 0x1c to 0x1f and space; next
      line; no-break space; ogham space mark; en quad to hair space; the
      line and paragraph separators; narrow no-break space; medium
      mathematical space; ideographic space. */
  function SpaceRange(k: nat): (char, char)
  {
    if k == 0 then ('\t', '\r')
    else if k == 1 then ('\U{1c}', ' ')
    else if k == 2 then ('\U{85}', '\U{85}')
    else if k == 3 then ('\U{a0}', '\U{a0}')
    else if k == 4 then ('\U{1680}', '\U{1680}')
    else if k == 5 then ('\U{2000}', '\U{200a}')
    else if k == 6 then ('\U{2028}', '\U{2029}')
    else if k == 7 then ('\U{202f}', '\U{202f}')
    else if k == 8 then ('\U{205f}', '\U{205f}')
    else ('\U{3000}', '\U{3000}')
  }

  const SpaceRanges := 10

  /** `c` lies in one of the ranges from the `k`-th on. */
  predicate InSpaceRanges(c: char, k: nat)
    decreases SpaceRanges - k
  {
    k < SpaceRanges && (SpaceRange(k).0 <= c <= SpaceRange(k).1 || InSpaceRanges(c, k + 1))
  }

  predicate IsSpace(c: char)
  {
    InSpaceRanges(c, 0)
  }

  /** The whitespace code points, listed outright. */
  lemma IsSpaceCodePoints(c: char)
    ensures IsSpace(c) <==>
      || ('\t' <= c <= '\r') || ('\U{1c}' <= c <= '\U{1f}') || c == ' '
      || c == '\U{85}' || c == '\U{a0}' || c == '\U{1680}'
      || ('\U{2000}' <= c <= '\U{200a}')
      || c == '\U{2028}' || c == '\U{2029}' || c == '\U{202f}' || c == '\U{205f}' || c == '\U{3000}'
  {
    assert InSpaceRanges(c, 9) <==> c == '\U{3000}';
    assert InSpaceRanges(c, 8) <==> c == '\U{205f}' || InSpaceRanges(c, 9);
    assert InSpaceRanges(c, 7) <==> c == '\U{202f}' || InSpaceRanges(c, 8);
    assert InSpaceRanges(c, 6) <==> ('\U{2028}' <= c <= '\U{2029}') || InSpaceRanges(c, 7);
    assert InSpaceRanges(c, 5) <==> ('\U{2000}' <= c <= '\U{200a}') || InSpaceRanges(c, 6);
    assert InSpaceRanges(c, 4) <==> c == '\U{1680}' || InSpaceRanges(c, 5);
    assert InSpaceRanges(c, 3) <==> c == '\U{a0}' || InSpaceRanges(c, 4);
    assert InSpaceRanges(c, 2) <==> c == '\U{85}' || InSpaceRanges(c, 3);
    assert InSpaceRanges(c, 1) <==> ('\U{1c}' <= c <= ' ') || InSpaceRanges(c, 2);
  }

  /** A string with no leading and no trailing whitespace. */
  predicate IsStripped(s: string)
  {
    s == [] || (!IsSpace(s[0]) && !IsSpace(s[|s| - 1]))
  }

  /** `r` sits at offset `i` of `s` and everything around it is whitespace. */
  predicate Padded(s: string, r: string, i: int)
  {
    && 0 <= i <= |s| - |r|
    && s[i..i + |r|] == r
    && (forall k :: 0 <= k < i ==> IsSpace(s[k]))
    && (forall k :: i + |r| <= k < |s| ==> IsSpace(s[k]))
  }

  /** The number of leading whitespace characters. */
  function LeadingSpace(s: string): (r: nat)
    ensures r <= |s|
  {
    if s != [] && IsSpace(s[0]) then 1 + LeadingSpace(s[1..]) else 0
  }

  /** `s.strip()`: whitespace is removed from the front, then from the back,
      so the result is no longer than `s`. */
  function Strip(s: string): (r: string)
    ensures |r| <= |s|
    decreases |s|
  {
    if s == [] then []
    else if IsSpace(s[0]) then Strip(s[1..])
    else if IsSpace(s[|s| - 1]) then Strip(s[..|s| - 1])
    else s
  }

  /** The result of `strip()` neither begins nor ends with whitespace. */
  lemma {:induction false} StripIsStripped(s: string)
    ensures IsStripped(Strip(s))
    decreases |s|
  {
    if s != [] {
      if IsSpace(s[0]) {
        StripIsStripped(s[1..]);
      } else if IsSpace(s[|s| - 1]) {
        StripIsStripped(s[..|s| - 1]);
      }
    }
  }

  /** Whitespace added in front of a padded string keeps it padded. */
  lemma PaddedFront(s: string, r: string, i: int)
    requires s != [] && IsSpace(s[0]) && Padded(s[1..], r, i)
    ensures Padded(s, r, i + 1)
  {
    var t := s[1..];
    assert s[i + 1..i + 1 + |r|] == t[i..i + |r|];
    forall k | 0 < k < |s|
      ensures s[k] == t[k - 1]
    {
    }
  }

  /** Whitespace added at the back of a padded string keeps it padded. */
  lemma PaddedBack(s: string, r: string, i: int)
    requires s != [] && IsSpace(s[|s| - 1]) && Padded(s[..|s| - 1], r, i)
    ensures Padded(s, r, i)
  {
    var t := s[..|s| - 1];
    assert s[i..i + |r|] == t[i..i + |r|];
    forall k | 0 <= k < |s| - 1
      ensures s[k] == t[k]
    {
    }
  }

  /** What `strip()` removes is whitespace only: the result sits in `s`
      after the leading whitespace, with nothing but whitespace on either side. */
  lemma {:induction false} StripPadded(s: string)
    ensures Padded(s, Strip(s), LeadingSpace(s))
    decreases |s|
  {
    if s == [] {
    } else if IsSpace(s[0]) {
      StripPadded(s[1..]);
      PaddedFront(s, Strip(s[1..]), LeadingSpace(s[1..]));
    } else if IsSpace(s[|s| - 1]) {
      var t := s[..|s| - 1];
      StripPadded(t);
      assert t[0] == s[0];
      PaddedBack(s, Strip(t), LeadingSpace(t));
    } else {
      assert s[0..|s|] == s;
    }
  }

  /** Two strings without surrounding whitespace that sit in `s` with only
      whitespace around them are the same string. */
  lemma PaddedUnique(s: string, m: string, i: int, n: string, j: int)
    requires IsStripped(m) && Padded(s, m, i)
    requires IsStripped(n) && Padded(s, n, j)
    ensures m == n
  {
    if m != [] && n != [] {
      assert s[i] == m[0] && s[j] == n[0];
      assert s[i + |m| - 1] == m[|m| - 1] && s[j + |n| - 1] == n[|n| - 1];
      assert i == j;
      assert |m| == |n|;
    }
  }

  /** Strip's result is determined by its contract: whatever stripped string
      sits in `s` with only whitespace around it is `Strip(s)`. */
  lemma StripUnique(s: string, m: string, i: int)
    requires IsStripped(m) && Padded(s, m, i)
    ensures Strip(s) == m
  {
    StripPadded(s);
    StripIsStripped(s);
    PaddedUnique(s, m, i, Strip(s), LeadingSpace(s));
  }

  /** Two texts strip to the same string exactly when the first is the
      second's stripped text with only whitespace around it. */
  lemma StripSameIffPadded(a: string, b: string)
    ensures Strip(a) == Strip(b) <==> Padded(a, Strip(b), LeadingSpace(a))
  {
    StripPadded(a);
    if Padded(a, Strip(b), LeadingSpace(a)) {
      StripIsStripped(b);
      StripUnique(a, Strip(b), LeadingSpace(a));
    }
  }

  lemma StripIdempotent(s: string)
    ensures Strip(Strip(s)) == Strip(s)
  {
    var r := Strip(s);
    StripIsStripped(s);
    assert Padded(r, r, 0);
    StripUnique(r, r, 0);
  }

  lemma StripOfStripped(s: string)
    requires IsStripped(s)
    ensures Strip(s) == s
  {
    assert Padded(s, s, 0);
    StripUnique(s, s, 0);
  }

  /** When `s` begins with `m`, and `m` neither begins nor ends with whitespace,
      stripping `s` keeps `m` at its front: `Strip(s)` is a prefix of `s` at
      least as long as `m`. */
  lemma {:induction false} StripKeepsHead(s: string, m: string)
    requires |m| > 0 && |m| <= |s| && s[..|m|] == m
    requires !IsSpace(m[0]) && !IsSpace(m[|m| - 1])
    ensures |m| <= |Strip(s)| <= |s| && Strip(s) == s[..|Strip(s)|]
    decreases |s|
  {
    assert s[0] == m[0] && s[|m| - 1] == m[|m| - 1];
    if IsSpace(s[|s| - 1]) {
      var t := s[..|s| - 1];
      assert t[..|m|] == m;
      StripKeepsHead(t, m);
      assert t[..|Strip(t)|] == s[..|Strip(t)|];
    }
  }

  // ---------------------------------------------------------------------------
  // Substring search: str.find and a literal re.search
  // ---------------------------------------------------------------------------

  /** `p` occurs in `s` starting at index `i`. */
  predicate OccursAt(s: string, p: string, i: int)
  {
    0 <= i && i + |p| <= |s| && s[i..i + |p|] == p
  }

  /** The first occurrence of `p` in `s` at or after `k`. */
  function FindFrom(s: string, p: string, k: nat): (r: Option<nat>)
    ensures r.Some? ==> k <= r.value && OccursAt(s, p, r.value)
    ensures r.Some? ==> forall j :: k <= j < r.value ==> !OccursAt(s, p, j)
    ensures r.None? ==> forall j :: k <= j ==> !OccursAt(s, p, j)
    decreases |s| - k
  {
    if k + |p| > |s| then None
    else if s[k..k + |p|] == p then Some(k)
    else FindFrom(s, p, k + 1)
  }

  /** `s.find(p)`, with None for Python's -1. */
  function Find(s: string, p: string): (r: Option<nat>)
    ensures r.Some? ==> OccursAt(s, p, r.value) && forall j :: 0 <= j < r.value ==> !OccursAt(s, p, j)
    ensures r.None? ==> forall j :: 0 <= j ==> !OccursAt(s, p, j)
  {
    FindFrom(s, p, 0)
  }

  /** Find is pinned down by "occurs here, and nowhere earlier". */
  lemma FindIsFirst(s: string, p: string, i: nat)
    requires OccursAt(s, p, i)
    requires forall j :: 0 <= j < i ==> !OccursAt(s, p, j)
    ensures Find(s, p) == Some(i)
  {
  }

  /** An occurrence of `p + q` is an occurrence of `p` followed by one of `q`. */
  lemma OccursConcat(s: string, p: string, q: string, i: int)
    ensures OccursAt(s, p + q, i) <==> OccursAt(s, p, i) && OccursAt(s, q, i + |p|)
  {
    if 0 <= i && i + |p| + |q| <= |s| {
      assert s[i..i + |p| + |q|] == s[i..i + |p|] + s[i + |p|..i + |p| + |q|];
      if s[i..i + |p| + |q|] == p + q {
        assert s[i..i + |p|] == (p + q)[..|p|];
        assert s[i + |p|..i + |p| + |q|] == (p + q)[|p|..];
      }
    }
  }

  /** An occurrence inside the suffix `s[a..]` is an occurrence in `s`, shifted by `a`. */
  lemma OccursInSuffix(s: string, p: string, a: nat, k: nat)
    requires a <= |s|
    ensures OccursAt(s[a..], p, k) <==> OccursAt(s, p, a + k)
  {
    if 0 <= k && k + |p| <= |s| - a {
      assert s[a..][k..k + |p|] == s[a + k..a + k + |p|];
    }
  }

  // ---------------------------------------------------------------------------
  // Case mapping (ASCII letters only)
  // ---------------------------------------------------------------------------

  function LowerChar(c: char): char
  {
    if 'A' <= c <= 'Z' then (c as int - 'A' as int + 'a' as int) as char else c
  }

  function UpperChar(c: char): char
  {
    if 'a' <= c <= 'z' then (c as int - 'a' as int + 'A' as int) as char else c
  }

  /** `s.lower()` on ASCII letters; every other character is kept. */
  function Lower(s: string): (r: string)
    ensures |r| == |s| && forall k :: 0 <= k < |s| ==> r[k] == LowerChar(s[k])
  {
    seq(|s|, k requires 0 <= k < |s| => LowerChar(s[k]))
  }

  /** `s.upper()` on ASCII letters; every other character is kept. */
  function Upper(s: string): (r: string)
    ensures |r| == |s| && forall k :: 0 <= k < |s| ==> r[k] == UpperChar(s[k])
  {
    seq(|s|, k requires 0 <= k < |s| => UpperChar(s[k]))
  }

  lemma LowerAppend(a: string, b: string)
    ensures Lower(a + b) == Lower(a) + Lower(b)
  {
  }

  // ---------------------------------------------------------------------------
  // str.split(sep) for a one-character separator, and its inverse
  // ---------------------------------------------------------------------------

  /** The parts joined back together with the separator. */
  function JoinChar(parts: seq<string>, c: char): string
    requires |parts| >= 1
  {
    if |parts| == 1 then parts[0] else parts[0] + [c] + JoinChar(parts[1..], c)
  }

  /** `s.split(c)`: there is always at least one part, no part contains the
      separator, and joining the parts with the separator gives `s` back. */
  function Split(s: string, c: char): (r: seq<string>)
    ensures |r| >= 1
    ensures forall k :: 0 <= k < |r| ==> c !in r[k]
    ensures JoinChar(r, c) == s
  {
    if s == [] then [""]
    else if s[0] == c then
      var t := Split(s[1..], c);
      assert [""] + t == [""] + t;
      assert ([""] + t)[1..] == t;
      [""] + t
    else
      var t := Split(s[1..], c);
      var r := [[s[0]] + t[0]] + t[1..];
      assert r[1..] == t[1..];
      assert |t| > 1 ==> JoinChar(t, c) == t[0] + [c] + JoinChar(t[1..], c);
      assert s == [s[0]] + s[1..];
      r
  }

  /** A string without the separator is a single part. */
  lemma {:induction false} SplitNoSeparator(s: string, c: char)
    requires c !in s
    ensures Split(s, c) == [s]
  {
    if s != [] {
      SplitNoSeparator(s[1..], c);
      assert [s[0]] + s[1..] == s;
    }
  }

  /** Splitting `a + c + b` splits `a` and `b` separately. */
  lemma {:induction false} SplitConcat(a: string, b: string, c: char)
    ensures Split(a + [c] + b, c) == Split(a, c) + Split(b, c)
  {
    if a == [] {
      assert a + [c] + b == [c] + b;
      assert ([c] + b)[1..] == b;
    } else {
      var s := a + [c] + b;
      assert s[0] == a[0];
      assert s[1..] == a[1..] + [c] + b;
      SplitConcat(a[1..], b, c);
    }
  }

  /** A first part without the separator is split off whole. */
  lemma SplitAfterPart(a: string, b: string, c: char)
    requires c !in a
    ensures Split(a + [c] + b, c) == [a] + Split(b, c)
  {
    SplitConcat(a, b, c);
    SplitNoSeparator(a, c);
  }

  // ---------------------------------------------------------------------------
  // sep.join(parts)
  // ---------------------------------------------------------------------------

  /** `sep.join(parts)`: the empty list gives "", one part gives that part,
      and each further part is preceded by one separator. */
  function JoinWith(parts: seq<string>, sep: string): (r: string)
    ensures |parts| == 0 ==> r == []
    ensures |parts| == 1 ==> r == parts[0]
    ensures |parts| >= 1 ==> |parts[0]| <= |r| && r[..|parts[0]|] == parts[0]
  {
    if |parts| == 0 then ""
    else if |parts| == 1 then parts[0]
    else parts[0] + sep + JoinWith(parts[1..], sep)
  }

  /** Appending a part to a non-empty list appends the separator and the part. */
  lemma {:induction false} JoinWithAppend(parts: seq<string>, x: string, sep: string)
    requires |parts| >= 1
    ensures JoinWith(parts + [x], sep) == JoinWith(parts, sep) + sep + x
  {
    if |parts| == 1 {
      assert (parts + [x])[1..] == [x];
    } else {
      assert (parts + [x])[1..] == parts[1..] + [x];
      JoinWithAppend(parts[1..], x, sep);
    }
  }
}
